=== FILE: README.md ===
# Recruvia job board — a Dafny model of its core

Recruvia is a job board with two roles. Employers post jobs, and each job can carry custom
application fields: text, textarea, number, date, file or select. Candidates apply to a job,
upload a résumé and answer the job's fields. This project models that core in Dafny 4 and proves
properties of the model:

- **`JobPostController` (Laravel backend).**
  - The role and owner gates of `store`, `update`, `destroy` and `updateStatus`.
  - The validation rules, including the closure that ties `options` to the `select` type.
  - The field rows `store` creates, and their defaults.
  - The reconciliation loop of `update`: it updates the fields the request names, deletes the
    job's other fields and creates the id-less ones.
  - The status switch and the filters of `search`.
- **`JobApplicationController::apply`.** Its gates, the duplicate check, the application row, and
  the loop that stores one answer per known field. Uploaded files go to storage.
- **The employer's "create job post" page.** The custom-field editor (add, edit, remove, move up
  and move down), the checks run before submission, the request body it builds, and how the
  options box turns text into a list and back.
- **The frontend route guard (`ProtectedRoute`).** Its redirects, and whether it shows the page.
- **The registration page.** Its presence, password and email checks, in order, and the request
  body it builds.

The database is the class `Tables.Database`. It has one field per table: job posts, application
fields, applications and answers. Each id column is auto-increment, and the lookup tables are
fixed. Its invariant `Valid()` states the migrations' foreign keys and the invariant on stored
fields: a field has options exactly when it is a select field. It also says a candidate applies
to a job at most once.

The actions that change tables are methods on that class. A request runs in one transaction: the
method either commits every write or leaves the database unchanged. Each method's postcondition
gives the reply and the whole new state in terms of pure specification functions. Lemmas about
those functions carry the promises of the code: which rows survive, where each value comes from,
what is fresh, that the invariants hold, idempotence, round trips and narrowing.

How the model represents the system:

- **Replies.** A reply is `Success(code, data)` or `Failure(code, message)`, as
  `ResponseHelper` produces them.
  - A failed validation is `Invalid`.
  - `findOrFail` on a missing row is `NotFound`.
  - A PHP error that escapes the transaction is `Thrown`, and the transaction rolls back.
- **Outside effects are parameters.**
  - The file store is a function from (directory, upload) to the stored path.
  - A failure inside the `apply` transaction is a boolean.
- **Request bodies.** The framework's default TrimStrings and ConvertEmptyStringsToNull middleware
  run before validation (backend/bootstrap/app.php adds only an alias). `RequestCleaning.Cleaned`
  models them: every string is trimmed, and a blank one becomes null. The path from the create
  page's request element to the item the endpoints read goes through it.

## Model

| member | source | states |
|---|---|---|
| FieldRules.ParseFieldType | backend/app/Http/Controllers/JobPostController.php:57 | The `in:` rule accepts exactly the six tags of the `field_type` enum. It maps "select" and only "select" to Select, and "file" and only "file" to File. |
| FieldRules.RowFromDefaults | backend/app/Http/Controllers/JobPostController.php:89-99 | A created field row belongs to the job and takes the item's name, type and description. A missing `is_required` defaults to false, a missing `status` to true, and a missing `order` to 0. Options are stored only when given as a list. |
| FieldRules.ValidItemKeepsInvariant | backend/app/Http/Controllers/JobPostController.php:46-74 | An item that passes validation (with the options rule enforced on every item) can be stored without a PHP error. Its row has options exactly when its type is select. |
| FieldRules.SelectWithNullOptionsSlipsThrough | backend/app/Http/Controllers/JobPostController.php:61-73 | As Laravel runs the rules, a select item with `options: null` passes, and its row breaks the invariant that a select field has options. |
| FieldRules.OptionsRuleRefinesAsWritten | backend/app/Http/Controllers/JobPostController.php:61-73 | Every item the corrected options rule accepts is also accepted as written. The two rules differ only on items whose `options` is null or absent. |
| FieldRules.ReceivedItem | backend/app/Http/Controllers/JobPostController.php:89-99 | How the controller reads one element of `fields` after the default middleware. A present `field_name` or `field_type` must be a string and is read as sent. A string `field_description` is read as that description, and a null one as none. A present `id` must be a non-negative integer and is read as that id. `is_required` and `status` must be boolean-like and are read through `AsBool`. An integer `order` is read as that order and a null one as none; any other `order`, and a null `is_required`, make the item invalid. A list of options is read as that list, and null options as Null. A missing `field_description` reads as no description, a missing `options` as Missing, and a missing `id` as no id. |
| FieldRules.UnreadKeyIgnored | backend/app/Http/Controllers/JobPostController.php:89-99 | A key the controller does not read (such as `description`) has no effect on the item it reads. |
| Common.TrimEmptyIffAllSpace | frontend/src/pages/employer/job-posts/create-new/index.tsx:106-115 | `!s.trim()` holds exactly when every character of `s` is JavaScript whitespace. |
| Common.AppendedEffect | backend/app/Http/Controllers/JobApplicationController.php:56-71 | Inserting rows one after another into an auto-increment table adds exactly the keys `next`, …, `next + n - 1`, holding the rows in order. Every earlier row is kept. |
| FieldReconcile.InsertRowsEffect | backend/app/Http/Controllers/JobPostController.php:89-99 | Creating the rows of `store` keeps every existing row. It gives the k-th item the id `next + k`, and no other row appears. |
| FieldReconcile.LastBefore | backend/app/Http/Controllers/JobPostController.php:152-180 | The last item before position k that names a given id, or none when no such item exists. |
| FieldReconcile.ReconcileOtherJobs | backend/app/Http/Controllers/JobPostController.php:152-182 | Reconciling one job's fields leaves every field of every other job post as it was, even when an item names one of them. |
| FieldReconcile.ReconcileNamed | backend/app/Http/Controllers/JobPostController.php:155-163 | A field of the job that some item names keeps its id and takes the attributes of the last item naming it. |
| FieldReconcile.ReconcileUnnamed | backend/app/Http/Controllers/JobPostController.php:179-182 | A field of the job that no item names is deleted. |
| FieldReconcile.ReconcileNew | backend/app/Http/Controllers/JobPostController.php:164-177 | Each id-less item creates exactly one new row under a fresh id that was not in the table before. |
| FieldReconcile.ReconcileEffect | backend/app/Http/Controllers/JobPostController.php:147-184 | The whole promise of the `fields` branch of `update`: other jobs' fields are kept, named fields are updated, unnamed fields are deleted, id-less items become fresh rows, and no other row exists afterwards. |
| FieldReconcile.ReconcileIdempotentWhenIdentified | backend/app/Http/Controllers/JobPostController.php:147-184 | Sending the same list twice, when every item carries an id, gives the same table as sending it once. |
| FieldReconcile.EmptyListClearsJob | backend/app/Http/Controllers/JobPostController.php:179-182 | An empty `fields` list deletes every field of the job and nothing else. |
| FieldReconcile.ReconcileRowOrigin | backend/app/Http/Controllers/JobPostController.php:152-182 | An existing row survives exactly when it is not among the ids `update` deletes. Every row afterwards is either an old row kept as it was, or a row built from one of the request's items. |
| FieldReconcile.ReconcileKeepsOptionsInvariant | backend/database/migrations/2025_07_22_131255_create_job_application_fields_table.php:19-23 | If every stored row and every item's row has options exactly when it is a select field, the reconciled table has this property too. |
| FieldReconcile.ValidEntriesKeepInvariant | backend/app/Http/Controllers/JobPostController.php:117-145 | Entries built from items that pass `update`'s validation all have options exactly when they are select fields. |
| Tables.AnswersWithoutKeepsAnswersOk | backend/database/migrations/2025_07_22_135404_create_application_field_answers_table.php:16-17 | Removing the answers of deleted fields and deleted applications, the cascade of both foreign keys, leaves every remaining answer attached to a remaining application and a remaining field. |
| Tables.ReconcileKeepsTables | backend/database/migrations/2025_07_22_131255_create_job_application_fields_table.php:16-23 | After reconciliation every field row still belongs to an existing job post and keeps the options invariant. The answers whose field survives still point to existing fields. |
| Tables.InsertKeepsTables | backend/database/migrations/2025_07_22_131255_create_job_application_fields_table.php:16-23 | Appending a job's new field rows keeps the id counter fresh, keeps every row attached to an existing job, and keeps the options invariant. |
| JobPosts.JobFrom | backend/app/Http/Controllers/JobPostController.php:79-87 | The created job post belongs to the caller and takes the request's title, description, category, type, location and location type. It is open only when `status` is sent as a value the `boolean` rule reads as true. |
| JobPosts.InsertFields | backend/app/Http/Controllers/JobPostController.php:89-99 | The `foreach` of `store` gives the table with one new row per item, under consecutive fresh ids, in order. |
| JobPosts.CreateJob | backend/app/Http/Controllers/JobPostController.php:76-103 | The committed transaction of `store` adds the job post under the next id, which was not in use, and one field row per item. Applications and answers are unchanged, and the tables stay consistent. |
| JobPosts.Store | backend/app/Http/Controllers/JobPostController.php:38-106 | A non-employer gets 403 and an invalid body `Invalid` (a null or non-boolean `status` among its causes); both leave the tables unchanged. A valid body without a location type, or with `fields: null`, throws and rolls back. Otherwise the reply carries the new id, the job post holds the request's values, and one field row per item is added. |
| JobPosts.Patched | backend/app/Http/Controllers/JobPostController.php:149-150 | Each of `title`, `description`, `category_id`, `type_id`, `location_id` and `location_type_id` present in the request replaces that column, and each absent one leaves it. The owner and status never change, and an empty patch changes nothing. |
| JobPosts.ApplyItem | backend/app/Http/Controllers/JobPostController.php:156-178 | One pass of the loop: an item with an id overwrites that row only when it is one of the job's own fields. An item without an id is created under the next id. |
| JobPosts.ReconcileFields | backend/app/Http/Controllers/JobPostController.php:152-182 | The update loop over the items plus the delete gives exactly the reconciled table. The ids it deletes are exactly the job's fields that no item names. |
| JobPosts.Update | backend/app/Http/Controllers/JobPostController.php:108-187 | A missing job post gives 404, a non-owner 403 and an invalid body `Invalid` (a title or description blanked to null among its causes), each with the tables unchanged. `fields: null` throws and rolls back. On success the job post is patched. Without `fields`, the fields and answers are unchanged. With `fields`, the fields are reconciled and the answers of deleted fields go with them. |
| JobPosts.Destroy | backend/app/Http/Controllers/JobPostController.php:189-201 | A missing job post gives 404 and a non-owner 403, both with the tables unchanged. Otherwise the job post, its fields, its applications and their answers are deleted, and nothing else is. |
| JobPosts.DestroyKeepsTables | backend/app/Http/Controllers/JobPostController.php:189-201 | After the cascade of deleting a job post, every remaining field row and application belongs to a remaining job post, no candidate holds two applications to one job, and every remaining answer belongs to a remaining application and field. |
| JobPosts.StatusValue | backend/app/Http/Controllers/JobPostController.php:254-258 | Exactly 0, 1, "0" and "1" are accepted, and exactly 1 and "1" open the job post. |
| JobPosts.UpdateStatus | backend/app/Http/Controllers/JobPostController.php:245-261 | The order of failures is 404, then 403, then 422 for any other value, each with the tables unchanged. On success only the job's status changes. |
| JobPosts.Search | backend/app/Http/Controllers/JobPostController.php:203-232 | `search` lists only existing, open job posts. Each listed post has the filled keyword in its title or description, and its location, type, category and location type equal every id given. |
| JobPosts.ContainsIffOccurs | backend/app/Http/Controllers/JobPostController.php:209-214 | The `LIKE '%k%'` test holds exactly when the keyword occurs at some position of the text. |
| JobPosts.SearchComplete | backend/app/Http/Controllers/JobPostController.php:205-229 | Every open job post that meets each filled filter, with the keyword at some position of its title or its description, is listed. |
| JobPosts.SearchKeywordFound | backend/app/Http/Controllers/JobPostController.php:209-214 | A post listed for a filled keyword has the keyword at some position of its title or its description. |
| JobPosts.SearchNarrowing | backend/app/Http/Controllers/JobPostController.php:205-229 | Adding filters never adds results. |
| JobPosts.SearchUnfiltered | backend/app/Http/Controllers/JobPostController.php:205-229 | With no filter filled in, `search` lists exactly the open job posts. A blank keyword counts as no filter. |
| JobPosts.SearchFindsTitle | backend/app/Http/Controllers/JobPostController.php:209-214 | An open job post whose title contains the keyword is found by it. |
| Applications.ValueToStore | backend/app/Http/Controllers/JobApplicationController.php:60-65 | The `??` default followed by the file override: an upload for a file field is stored under "application_files" and its path is the answer, an upload for any other field keeps its temporary path, text is kept as it is, and the value is null exactly when nothing was sent. |
| Applications.AnswersShape | backend/app/Http/Controllers/JobApplicationController.php:56-71 | There is one answer per item whose field belongs to the job, in item order. Each answer belongs to the new application and to that field. |
| Applications.AnswerForItem | backend/app/Http/Controllers/JobApplicationController.php:56-71 | The answer written for a matched item holds that item's stored value. |
| Applications.ApplicationFrom | backend/app/Http/Controllers/JobApplicationController.php:46-54 | The application row belongs to the candidate and the job. Its first name, last name, email and phone are the submitted ones, and its résumé path is the stored one. |
| Applications.WriteAnswers | backend/app/Http/Controllers/JobApplicationController.php:56-71 | The answer loop appends exactly the answers the specification lists, under consecutive fresh ids. |
| Applications.ApplyKeepsTables | backend/database/migrations/2025_07_22_135404_create_application_field_answers_table.php:16-17 | Adding a new application and its answers keeps every foreign key. It also keeps the rule that a candidate applies to a job at most once. |
| Applications.Apply | backend/app/Http/Controllers/JobApplicationController.php:18-91 | The order of outcomes is 403 for a non-candidate, 404, `Invalid`, 409 for a second application, then 500 when the transaction fails; each leaves the tables unchanged. Otherwise it succeeds with the new id: the application row and its answers are added, and jobs and fields are unchanged. |
| RequestCleaning.StrTrimEffect | backend/bootstrap/app.php:13-17 | The trimmed string is the slice of the original between its leading and trailing stripped characters, has nothing left to strip, is empty exactly when every character is stripped, and equals a string that has nothing to strip. |
| RequestCleaning.CleanStringEffect | backend/bootstrap/app.php:13-17 | After TrimStrings and ConvertEmptyStringsToNull a string is null exactly when it is blank; otherwise it is non-empty, trimmed, and a slice of the original. A non-empty string with nothing to strip passes unchanged. |
| RequestCleaning.CleanedIdempotent | backend/bootstrap/app.php:13-17 | Running the two middleware on a body they already cleaned changes nothing. |
| RequestCleaning.CleanedIsClean | backend/bootstrap/app.php:13-17 | After cleaning, no value of the body and no array element is a blank string or a string with something left to strip. Null, booleans and integers pass unchanged, a string stays a string or becomes null, and an array keeps its length. |
| RequestCleaning.CleanElementsEffect | backend/bootstrap/app.php:13-17 | An array element arrives as null exactly when it was null or blank; otherwise it is non-empty with nothing left to strip. |
| FieldEditor.Renumbered | frontend/src/pages/employer/job-posts/create-new/index.tsx:101-102 | After renumbering every draft's order is its position counted from 1. Every draft keeps its content. |
| FieldEditor.RenumberedNumbered | frontend/src/pages/employer/job-posts/create-new/index.tsx:101-102 | Renumbering a list that is already numbered changes nothing. |
| FieldEditor.Edited | frontend/src/pages/employer/job-posts/create-new/index.tsx:93-97 | Editing one key of a draft sets that key to the new value and leaves every other key and the order unchanged. |
| FieldEditor.AddFieldEffect | frontend/src/pages/employer/job-posts/create-new/index.tsx:79-91 | `addField` appends exactly one blank text draft, numbered after the others. The earlier drafts are kept, and a numbered list stays numbered. |
| FieldEditor.RemoveFieldEffect | frontend/src/pages/employer/job-posts/create-new/index.tsx:99-103 | `removeField(i)` removes exactly draft i, keeps the others in their relative order, and numbers the result 1 to n-1. |
| FieldEditor.MoveEffect | frontend/src/pages/employer/job-posts/create-new/index.tsx:565-604 | Moving up swaps a draft with the one before it, and moving down swaps it with the one after it. Both renumber the list. At the ends nothing changes. |
| FieldEditor.MoveDownUndoesMoveUp | frontend/src/pages/employer/job-posts/create-new/index.tsx:565-604 | On a numbered list, moving a draft down undoes moving it up. |
| FieldEditor.FieldListEditor.constructor | frontend/src/pages/employer/job-posts/create-new/index.tsx:79-91 | The page starts with no custom fields. |
| FieldEditor.FieldListEditor.AddField | frontend/src/pages/employer/job-posts/create-new/index.tsx:79-91 | The `fields` state becomes the list with one blank draft appended. |
| FieldEditor.FieldListEditor.UpdateField | frontend/src/pages/employer/job-posts/create-new/index.tsx:93-97 | The `fields` state becomes the list with draft i edited at one key, which takes the new value, and every other draft unchanged. |
| FieldEditor.FieldListEditor.RemoveField | frontend/src/pages/employer/job-posts/create-new/index.tsx:99-103 | The `fields` state becomes the list without draft i, renumbered. |
| FieldEditor.FieldListEditor.MoveUp | frontend/src/pages/employer/job-posts/create-new/index.tsx:565-582 | The `fields` state becomes the list with draft i moved up one place, renumbered. |
| FieldEditor.FieldListEditor.MoveDown | frontend/src/pages/employer/job-posts/create-new/index.tsx:587-604 | The `fields` state becomes the list with draft i moved down one place, renumbered. |
| FieldEditor.StepKeepsNumbered | frontend/src/pages/employer/job-posts/create-new/index.tsx:79-103 | Every button of the editor keeps the drafts numbered 1 to n. |
| FieldEditor.RunKeepsNumbered | frontend/src/pages/employer/job-posts/create-new/index.tsx:79-103 | Any sequence of button presses, starting from a numbered list, keeps the drafts numbered 1 to n. |
| FieldEditor.FormError | frontend/src/pages/employer/job-posts/create-new/index.tsx:104-135 | The job-level inputs pass exactly when the title and description are not blank and a category, type, location and location type are all picked. |
| FieldEditor.DraftError | frontend/src/pages/employer/job-posts/create-new/index.tsx:138-156 | A draft produces no message exactly when its name is not blank, a required draft has a type, and a select draft has options. |
| FieldEditor.FirstFailing | frontend/src/pages/employer/job-posts/create-new/index.tsx:138-156 | The position of the first draft at or after i that fails, with every draft before it passing. |
| FieldEditor.DraftsError | frontend/src/pages/employer/job-posts/create-new/index.tsx:138-156 | The drafts produce no message exactly when every draft passes its checks. |
| FieldEditor.AcceptedDraft | frontend/src/pages/employer/job-posts/create-new/index.tsx:138-156 | A draft the page lets through has a name with a non-whitespace character. A select draft it lets through has at least one option. |
| FieldEditor.CheckDrafts | frontend/src/pages/employer/job-posts/create-new/index.tsx:138-156 | The `for` loop reports the message of the first failing draft, or nothing when every draft passes. |
| FieldEditor.PayloadItemShape | frontend/src/pages/employer/job-posts/create-new/index.tsx:165-174 | Every element is sent with status true. It carries `options` exactly when it is a select field, and then carries the draft's option list as a JSON array of strings. |
| FieldEditor.DescriptionDroppedAsWritten | frontend/src/pages/employer/job-posts/create-new/index.tsx:171 | As written, the backend reads every element the page sends, after the middleware, without its description: name and type trimmed (a blank one refuses the element), options trimmed with blank ones null. |
| FieldEditor.DescriptionKept | frontend/src/pages/employer/job-posts/create-new/index.tsx:171 | With the key `field_description`, the backend reads the element, after the middleware, with the draft's description trimmed. The description is none exactly when it is blank, and arrives as typed when it has nothing to trim. |
| FieldEditor.AcceptedDraftArrivesValid | frontend/src/pages/employer/job-posts/create-new/index.tsx:138-175 | A draft the page lets through arrives, after the middleware, as an element that passes the backend's rules, given a known type tag and a name of at most 255 characters with no NUL and with a character `Str::trim` keeps. |
| FieldEditor.ArrivedValid | backend/app/Http/Controllers/JobPostController.php:55-73 | A draft the page accepts, with a known tag and a name the middleware does not blank out, reads as an element that passes every rule of the endpoint, whatever its description. |
| FieldEditor.TagArrivesUnchanged | backend/database/migrations/2025_07_22_131255_create_job_application_fields_table.php:19 | The six type tags pass the middleware unchanged. |
| FieldEditor.HandleSubmit | frontend/src/pages/employer/job-posts/create-new/index.tsx:104-175 | Submission is blocked exactly when a job-level or draft check fails, and the first job-level error wins. A request carries the title, the description, the selected category, type, location and location type, and one element per draft. |
| FieldEditor.SubmitSendsCheckedDrafts | frontend/src/pages/employer/job-posts/create-new/index.tsx:138-175 | A request is built only when every draft passes, and then its k-th element is the k-th draft. |
| FieldEditor.SplitCommasJoin | frontend/src/pages/employer/job-posts/create-new/index.tsx:647 | The pieces of `split(",")` hold no comma, and joined with commas they give back the text. |
| FieldEditor.JoinCommasSplit | frontend/src/pages/employer/job-posts/create-new/index.tsx:647 | Splitting a non-empty list of comma-free pieces joined with commas gives the list back. |
| FieldEditor.OptionsRoundTrip | frontend/src/pages/employer/job-posts/create-new/index.tsx:642-647 | Reading back the displayed text of a non-empty option list gives the list again, when the options contain no comma and no surrounding whitespace. |
| FieldEditor.ClearedOptionsBoxGivesOneEmptyOption | frontend/src/pages/employer/job-posts/create-new/index.tsx:647 | Clearing the options box gives the list `[""]`. A select draft with that list passes the page's checks, arrives at the endpoints as the options `[null]`, and passes their rules. |
| RouteGuard.RequiredRoleFrom | frontend/src/components/ProtectedRoute.tsx:24-26 | No role is required exactly when the path starts with none of the prefixes. A required role is the one paired with a prefix the path starts with. |
| RouteGuard.RequiredRoleByPrefix | frontend/src/components/ProtectedRoute.tsx:8-11 | Paths under "/employer" need the employer role and paths under "/candidate" need the candidate role. No other path needs a role. |
| RouteGuard.PercentBytes | frontend/src/components/ProtectedRoute.tsx:30 | Bytes are written as "%XX" escapes, three characters each, that a percent decoder reads back as the same bytes. |
| RouteGuard.EncodeChar | frontend/src/components/ProtectedRoute.tsx:30 | An unreserved character encodes as itself. Any other character encodes as a "%"-led run of escapes that decodes back to its UTF-8 bytes. |
| RouteGuard.EncodedIsQuerySafe | frontend/src/components/ProtectedRoute.tsx:30 | `encodeURIComponent` output is at least as long as its input and holds only unreserved characters and '%'. No character in it can end the query value. |
| RouteGuard.Decide | frontend/src/components/ProtectedRoute.tsx:22-38 | While loading there is no redirect. Without a session, a protected page sends the visitor to login with the page to return to. A session on "/" goes to the role's dashboard. A session with the wrong role goes to "/401". Each case holds exactly under its condition. |
| RouteGuard.Render | frontend/src/components/ProtectedRoute.tsx:40-53 | Content is shown exactly when the session is not loading and there is a session or the page is public. |
| RouteGuard.ProtectedNeedsSession | frontend/src/components/ProtectedRoute.tsx:28-51 | A protected page is never shown without a session, and once loading ends the visitor is sent to login. |
| RouteGuard.NoSelfRedirect | frontend/src/components/ProtectedRoute.tsx:28-35 | No redirect points at the page it is issued on. |
| RouteGuard.RedirectSettles | frontend/src/components/ProtectedRoute.tsx:28-35 | For the employer and candidate roles, the page a redirect leads to issues no further redirect. |
| RouteGuard.WrongRoleRendersUntilRedirected | frontend/src/components/ProtectedRoute.tsx:33-53 | With a session but the wrong role, the page's content is shown in the same render that issues the redirect to "/401". |
| Registration.PasswordPatternIsRule | frontend/src/pages/register.tsx:47-53 | The password pattern accepts exactly passwords of at least eight ASCII letters and digits only, with a lowercase letter, an uppercase letter and a digit. |
| Registration.EmailPatternIsRule | frontend/src/pages/register.tsx:56-60 | The email pattern accepts exactly text with no whitespace, a single "@" that is not first, and a "." that is neither last nor right after the "@". |
| Registration.HandleSubmit | frontend/src/pages/register.tsx:38-81 | The checks run in order (presence, then password, then email), each with its own message. A request is made exactly when all three pass. |
| Registration.RequestPayload | frontend/src/pages/register.tsx:74-81 | The request carries the form's values and confirms the password with itself. It names a company exactly when the role is employer, and then the company is filled in. |

## Left out

**Behaviour kept as the code has it.** In these places the model does what the code does,
even where the application's intent may differ:

- **Notification.** `apply` sends both notifications synchronously inside its transaction, so a
  mail failure rolls the application back and gives 500. The failure is the `fault` parameter of
  `Applications.Apply`; the mail itself is not modelled.
- **Answers are not checked.** `apply` enforces neither `is_required` nor membership in a select
  field's options. The model stores whatever arrives.
- **Unknown field ids.** `fields.*.field_id` is checked with a global `exists`, so an id that no
  field has gives `Invalid`. A field of another job passes validation and is then skipped.
- **Unknown item ids in `update`.** `fields.*.id` is also a global `exists`. An id belonging to
  another job's field passes, updates nothing, and is still counted as named.
- **Idempotence.** A second identical `update` creates new rows for id-less items again, so
  idempotence is proved only for lists whose every item carries an id.
- **Location type.** `store` validates `location_type_id` as nullable, but the column is NOT NULL
  (backend/database/migrations/2025_07_21_170634_create_job_posts_table.php:22). A valid body
  without it therefore throws and rolls back (`Thrown`).
- **Contact fields.** The model of the applications table writes the contact fields of
  JobApplicationController.php:46-54. The model class's `$fillable` list in
  backend/app/Models/Application.php omits them; the model follows the controller.

**Left out entirely:**

- HTTP plumbing: routing, authentication tokens, the `auth` middleware, and the
  exception-to-status mapping. `Invalid`, `NotFound` and `Thrown` stand for those responses. Of the
  framework's default global middleware only TrimStrings and ConvertEmptyStringsToNull are
  modelled (`RequestCleaning.Cleaned`), and only on the `fields` elements the create page sends;
  elsewhere `FieldRules.Json` is taken to be the body after them.
- Timestamps, `latest()` ordering of search results, and eager loading of relations in replies.
- JobMetaController and the flows on the create page that make a new category or location.
- The edit, view and applicant pages, the dashboards, the login page and AuthContext. Only the
  create page's field editor, the route guard and the registration page are modelled.
- React rendering, toasts and alerts, the network calls, and the display of server errors.
- The mail notifications' content and delivery.
- Files already stored before a transaction rolls back stay on disk; storage is not modelled as
  state.
- Applications.SubmissionValid: checks only that the email is non-blank, because Laravel's
  `email` rule (RFC validation) is not modelled.
- Applications.SubmissionValid: uses the upload's `extension` in place of Laravel's MIME
  detection for the `mimes:pdf,doc,docx` rule.
- JobPosts.Search: models `LIKE '%k%'` as plain substring search. It leaves out the database
  collation's case folding and the `%` and `_` wildcards inside the keyword.
- JobPosts.StatusValue: the route parameter arrives as a string; the integer cases are kept for
  callers that pass one.
- JobPosts.Store: validates `fields` with the corrected `FieldRules.OptionsRule`. As written, the
  options closure does not run when options is null or absent. A select item with `options: null`
  is accepted, answered with 201, and stored as a select row with NULL options. A select item
  without the `options` key also passes validation, but the read of `$field['options']` at
  JobPostController.php:97 then throws, the transaction rolls back, and the exception handler at
  backend/bootstrap/app.php:37 answers 400 (the model's `Thrown`). The options
  invariant of `Tables.Database.Valid` (options exactly when select) holds only for the corrected
  program. The as-written rule is `FieldRules.OptionsRuleAsWritten`; see the Findings.
- JobPosts.Update: validates `fields` with the corrected `FieldRules.OptionsRule`. As written, a
  select item with `options: null` is accepted, answered with 200, and its row is stored or updated
  with NULL options. A select item without the `options` key passes validation and then throws at
  JobPostController.php:165 or 176, rolling the transaction back; the exception handler at
  backend/bootstrap/app.php:37 answers 400 (the model's `Thrown`). `Tables.Database.Valid`'s options invariant holds only for the
  corrected program.
- FieldEditor.HandleSubmit: builds each field with the corrected `FieldEditor.PayloadItem`, which
  sends the description under `field_description`. As written, the page sends it under
  `description`, which the backend ignores, so every stored description is null
  (`FieldEditor.PayloadItemAsWritten`).
- FieldRules.ReceivedItem: refuses `id` and `order` sent as numeric strings such as "3", which
  Laravel's `integer` and `exists` rules accept; it reads only JSON integers there.
- The model assumes relations and routes the source does not declare. The `applicationFields`
  relation that JobPostController.php (lines 90, 153, 158, 169, 182) and
  JobApplicationController.php:25 use is not defined in backend/app/Models/JobPost.php. The
  `answers` relation used at JobApplicationController.php:67 is not defined in
  backend/app/Models/Application.php. No route in backend/routes/api.php reaches `apply` or
  `updateStatus`. As written, those calls would fail and those actions would be unreachable. The
  model gives each relation its foreign-key meaning and treats both actions as callable.
- Destroy's cascade to applications: the migration that creates the applications table is not
  part of this model, so `JobPosts.Destroy` assumes its `job_id` is declared with
  `onDelete('cascade')` like the other foreign keys. Without it, deleting a job post with
  applications would fail on the foreign key and roll back.
- FieldEditor.AcceptedDraftArrivesValid: asks for a name with a character that `Str::trim` keeps.
  The page's check uses JavaScript's `trim`, which keeps U+0085, U+180E, U+200B and U+200E; a name
  made only of those and JavaScript white space passes the page, arrives as null, and is refused
  by the backend's `required` rule.
- JobPosts.Update: `JobPatch` holds a string or id for each key, or None when the key is absent. A
  key sent as null cannot be written. The source refuses a null `title` or `description`
  (`sometimes|string`) and a null lookup id (`sometimes|exists`), so such a request is `Invalid`,
  which the model shows only for a title or description that is blank.
- FieldRules.AsBool: JSON numeric strings other than "0" and "1", and floats, are not modelled.
- FieldEditor.OptionsRoundTrip: holds only for options without commas and without surrounding
  whitespace. The page cannot keep such options through its text box.
- RouteGuard.RedirectSettles: holds only for the two roles the application registers. A session
  with any other role on "/" is sent to a dashboard under that role's name.

## Findings

| source | as written | input that shows it | evidently intended | confidence | as-written member | corrected member |
|---|---|---|---|---|---|---|
| backend/app/Http/Controllers/JobPostController.php:61-73 | The `fields.*.options` closure is attached to a `nullable` attribute, so Laravel does not run it when options is null or absent. A select item without options passes validation. | `fields: [{field_name: "Shift", field_type: "select", options: null}]` is accepted and stored as a select field with no options. | Every select item must carry a non-empty option list, and a non-select item none, as the closure's messages say. | not executed | FieldRules.OptionsRuleAsWritten (shown by FieldRules.SelectWithNullOptionsSlipsThrough) | FieldRules.OptionsRule (proved by FieldRules.ValidItemKeepsInvariant) |
| frontend/src/pages/employer/job-posts/create-new/index.tsx:171 | The create page sends each field's description under `description`. The backend reads `field_description`. | Any custom field with a description: the stored row's description is null. | The page sends `field_description`, so the description is stored. | not executed | FieldEditor.PayloadItemAsWritten (shown by FieldEditor.DescriptionDroppedAsWritten) | FieldEditor.PayloadItem (proved by FieldEditor.DescriptionKept and FieldEditor.AcceptedDraftArrivesValid) |

=== FILE: Applications.dfy ===
/** JobApplicationController::apply: a candidate's submission to a job post,
    recorded as one application row and one answer row per submitted item that
    names a field of that job post. */
module Applications {
  import opened Common
  import opened FieldRules
  import opened FieldReconcile
  import opened Tables

  /** An uploaded file: where the framework parked it, the extension its
      content is recognised as, and its size. */
  datatype Upload = Upload(tempPath: string, extension: string, sizeBytes: nat)

  /** The `value` slot of one submitted item. */
  datatype AnswerValue =
    | NoValue              // absent or null
    | Text(s: string)      // a scalar, as text
    | FileValue(file: Upload)

  /** One element of the submission's `fields` array. */
  datatype AnswerItem = AnswerItem(fieldId: Option<nat>, value: AnswerValue)

  /** The body of an `apply` request; `None` means the key is absent (for
      `fields`, absent or null). */
  datatype Submission = Submission(
    firstName: Option<string>,
    lastName: Option<string>,
    email: Option<string>,
    phone: Option<string>,
    resume: Option<Upload>,
    fields: Option<seq<AnswerItem>>)

  /** `store($directory, 'public')`: the storage layer chooses the path. */
  type Storage = (string, Upload) -> string

  /** `required|string|max:n`. */
  predicate RequiredText(s: Option<string>, max: nat) {
    s.Some? && !PhpBlank(s.value) && |s.value| <= max
  }

  /** `required|file|mimes:pdf,doc,docx|max:5120`: the size limit is in kilobytes. */
  predicate ResumeOk(u: Option<Upload>) {
    u.Some? && u.value.extension in {"pdf", "doc", "docx"} && u.value.sizeBytes <= 5120 * 1024
  }

  function ItemsOf(s: Submission): seq<AnswerItem> {
    if s.fields.Some? then s.fields.value else []
  }

  /** The rules `apply` validates. Every `fields.*.field_id` is required and
      must exist in the field table, for any job post. */
  predicate SubmissionValid(t: FieldTable, s: Submission) {
    && RequiredText(s.firstName, 100)
    && RequiredText(s.lastName, 100)
    && s.email.Some? && !PhpBlank(s.email.value)
    && RequiredText(s.phone, 20)
    && ResumeOk(s.resume)
    && forall i :: 0 <= i < |ItemsOf(s)| ==> ItemsOf(s)[i].fieldId.Some? && ItemsOf(s)[i].fieldId.value in t.rows
  }

  /** An application by this candidate to this job post already exists. */
  predicate AlreadyApplied(apps: map<nat, Application>, candidateId: nat, jobId: nat) {
    exists a :: a in apps && apps[a].candidateId == candidateId && apps[a].jobId == jobId
  }

  /** `$job->applicationFields->firstWhere('id', $field['field_id'])` finds a row. */
  predicate FieldOfJob(t: FieldTable, jobId: nat, fieldId: nat) {
    fieldId in t.rows && t.rows[fieldId].jobId == jobId
  }

  /** The value an answer row stores: the stored path when the field is of type
      file and the slot holds an uploaded file; otherwise the submitted value,
      or null. An upload in the slot of a field of another type is written as
      the file object's string form, its temporary path. */
  function StoredValue(def: FieldRow, v: AnswerValue, store: Storage): (r: Option<string>)
    ensures def.fieldType == File && v.FileValue? ==> r == Some(store("application_files", v.file))
    ensures def.fieldType != File && v.FileValue? ==> r == Some(v.file.tempPath)
    ensures v.Text? ==> r == Some(v.s)
    ensures r.None? <==> v.NoValue?
  {
    match v
    case NoValue => None
    case Text(s) => Some(s)
    case FileValue(u) => if def.fieldType == File then Some(store("application_files", u)) else Some(u.tempPath)
  }

  /** The answer rows written for the first `k` items, in order. */
  function AnswersBefore(t: FieldTable, jobId: nat, appId: nat, items: seq<AnswerItem>, k: nat, store: Storage): seq<Answer>
    requires k <= |items|
  {
    if k == 0 then []
    else
      var item := items[k - 1];
      AnswersBefore(t, jobId, appId, items, k - 1, store) +
      (if item.fieldId.Some? && FieldOfJob(t, jobId, item.fieldId.value)
       then [Answer(appId, item.fieldId.value, StoredValue(t.rows[item.fieldId.value], item.value, store))]
       else [])
  }

  /** The answer rows written for a whole submission. */
  function AnswerRows(t: FieldTable, jobId: nat, appId: nat, items: seq<AnswerItem>, store: Storage): seq<Answer> {
    AnswersBefore(t, jobId, appId, items, |items|, store)
  }

  /** The number of the first `k` items that name a field of the job post. */
  function Matched(t: FieldTable, jobId: nat, items: seq<AnswerItem>, k: nat): nat
    requires k <= |items|
  {
    if k == 0 then 0
    else Matched(t, jobId, items, k - 1) +
         (if items[k - 1].fieldId.Some? && FieldOfJob(t, jobId, items[k - 1].fieldId.value) then 1 else 0)
  }

  /** One row per matching item, each linked to the new application and to a
      field of the job post; an item naming any other field adds nothing. */
  lemma {:induction false} AnswersShape(t: FieldTable, jobId: nat, appId: nat, items: seq<AnswerItem>, k: nat, store: Storage)
    requires k <= |items|
    ensures var rows := AnswersBefore(t, jobId, appId, items, k, store);
            && |rows| == Matched(t, jobId, items, k)
            && forall j :: 0 <= j < |rows| ==> rows[j].applicationId == appId && FieldOfJob(t, jobId, rows[j].fieldId)
  {
    if k > 0 {
      AnswersShape(t, jobId, appId, items, k - 1, store);
    }
  }

  /** The i-th item, when it names a field of the job post, is answered by the
      row whose position is the number of matching items before it. */
  lemma {:induction false} AnswerForItem(t: FieldTable, jobId: nat, appId: nat, items: seq<AnswerItem>, k: nat, i: nat, store: Storage)
    requires i < k <= |items|
    requires items[i].fieldId.Some? && FieldOfJob(t, jobId, items[i].fieldId.value)
    ensures var rows := AnswersBefore(t, jobId, appId, items, k, store);
            var fid := items[i].fieldId.value;
            && Matched(t, jobId, items, i) < |rows|
            && rows[Matched(t, jobId, items, i)] == Answer(appId, fid, StoredValue(t.rows[fid], items[i].value, store))
  {
    AnswersShape(t, jobId, appId, items, k - 1, store);
    if i < k - 1 {
      AnswerForItem(t, jobId, appId, items, k - 1, i, store);
    }
  }

  /** The application row `apply` creates. */
  function ApplicationFrom(candidateId: nat, jobId: nat, s: Submission, resumePath: string): (a: Application)
    requires s.firstName.Some? && s.lastName.Some? && s.email.Some? && s.phone.Some?
    ensures a.candidateId == candidateId && a.jobId == jobId && a.resumePath == resumePath
    ensures a.firstName == s.firstName.value && a.lastName == s.lastName.value
    ensures a.email == s.email.value && a.phone == s.phone.value
  {
    Application(candidateId, jobId, s.firstName.value, s.lastName.value, s.email.value, s.phone.value, resumePath)
  }

  /** The value one answer row receives: the submitted value or null, replaced
      by the stored path when the field is of type file and an upload was sent. */
  method ValueToStore(def: FieldRow, v: AnswerValue, store: Storage) returns (value: Option<string>)
    ensures value == StoredValue(def, v, store)
  {
    value :=
      match v
      case NoValue => None
      case Text(s) => Some(s)
      case FileValue(u) => Some(u.tempPath);
    if def.fieldType == File && v.FileValue? {
      value := Some(store("application_files", v.file));
    }
  }

  /** The loop of `apply`: one answer row per item that names a field of the
      job post, each inserted under the next answer id. */
  method WriteAnswers(t: FieldTable, jobId: nat, appId: nat, items: seq<AnswerItem>, store: Storage,
                      answers0: map<nat, Answer>, next0: nat)
    returns (answers: map<nat, Answer>, next: nat)
    requires forall i :: 0 <= i < |items| ==> items[i].fieldId.Some?
    ensures var rows := AnswerRows(t, jobId, appId, items, store);
            answers == Appended(answers0, next0, rows) && next == next0 + |rows|
  {
    ghost var rows: seq<Answer> := [];
    answers, next := answers0, next0;
    var i := 0;
    while i < |items|
      invariant 0 <= i <= |items|
      invariant rows == AnswersBefore(t, jobId, appId, items, i, store)
      invariant answers == Appended(answers0, next0, rows) && next == next0 + |rows|
    {
      var fieldId := items[i].fieldId.value;
      if fieldId in t.rows && t.rows[fieldId].jobId == jobId {
        var value := ValueToStore(t.rows[fieldId], items[i].value, store);
        var a := Answer(appId, fieldId, value);
        assert AnswersBefore(t, jobId, appId, items, i + 1, store) == rows + [a];
        AppendedPush(answers0, next0, rows, a);
        answers, next := answers[next := a], next + 1;
        rows := rows + [a];
      } else {
        assert AnswersBefore(t, jobId, appId, items, i + 1, store) == rows;
      }
      i := i + 1;
    }
  }

  /** Adding one application that duplicates no (candidate, job post) pair,
      with answer rows that point at it and at existing fields, keeps the
      application and answer tables consistent. */
  lemma ApplyKeepsTables(jobIds: set<nat>, fieldIds: set<nat>, apps: map<nat, Application>, appId: nat,
                         app: Application, answers: map<nat, Answer>, next: nat, rows: seq<Answer>)
    requires KeysBelow(apps, appId) && ApplicationsOk(apps, jobIds)
    requires KeysBelow(answers, next) && AnswersOk(answers, apps.Keys, fieldIds)
    requires app.jobId in jobIds && !AlreadyApplied(apps, app.candidateId, app.jobId)
    requires forall j :: 0 <= j < |rows| ==> rows[j].applicationId == appId && rows[j].fieldId in fieldIds
    ensures var apps' := apps[appId := app];
            && KeysBelow(apps', appId + 1) && ApplicationsOk(apps', jobIds)
            && KeysBelow(Appended(answers, next, rows), next + |rows|)
            && AnswersOk(Appended(answers, next, rows), apps'.Keys, fieldIds)
  {
    var apps' := apps[appId := app];
    assert appId !in apps;
    forall a, b | a in apps' && b in apps' && a != b
      ensures apps'[a].candidateId != apps'[b].candidateId || apps'[a].jobId != apps'[b].jobId
    {
      if a == appId {
        assert apps'[b] == apps[b];
      } else if b == appId {
        assert apps'[a] == apps[a];
      }
    }
    AppendedEffect(answers, next, rows);
    var answers' := Appended(answers, next, rows);
    forall k | k in answers' ensures answers'[k].applicationId in apps'.Keys && answers'[k].fieldId in fieldIds {
      if k !in answers {
        assert answers'[next + (k - next)] == rows[k - next];
      }
    }
  }

  /** `apply`: only a candidate may apply; a missing job post is 404; an
      invalid submission is refused; a second application to the same job post
      is 409. Otherwise the resume is stored, the application and its answers
      are written, and the two notifications are sent, all inside one
      transaction: if any of these steps throws (`fault`), everything is rolled
      back and the reply is 500. */
  method Apply(db: Database, user: User, jobId: nat, s: Submission, store: Storage, fault: bool)
    returns (reply: Reply<nat>)
    requires db.Valid()
    modifies db
    ensures db.Valid()
    ensures user.role != "candidate" ==> reply == Failure(403, "Only candidates can apply") && unchanged(db)
    ensures user.role == "candidate" && jobId !in old(db.jobs) ==> reply == NotFound && unchanged(db)
    ensures user.role == "candidate" && jobId in old(db.jobs) && !SubmissionValid(old(db.fields), s) ==>
              reply == Invalid && unchanged(db)
    ensures user.role == "candidate" && jobId in old(db.jobs) && SubmissionValid(old(db.fields), s) &&
            AlreadyApplied(old(db.applications), user.id, jobId) ==>
              reply == Failure(409, "You have already applied to this job.") && unchanged(db)
    ensures user.role == "candidate" && jobId in old(db.jobs) && SubmissionValid(old(db.fields), s) &&
            !AlreadyApplied(old(db.applications), user.id, jobId) && fault ==>
              reply == Failure(500, "Application failed") && unchanged(db)
    ensures reply.Success? <==>
              user.role == "candidate" && jobId in old(db.jobs) && SubmissionValid(old(db.fields), s) &&
              !AlreadyApplied(old(db.applications), user.id, jobId) && !fault
    ensures reply.Success? ==>
              var appId := old(db.nextApplication);
              var rows := AnswerRows(old(db.fields), jobId, appId, ItemsOf(s), store);
              && reply == Success(200, appId)
              && appId !in old(db.applications)
              && db.applications == old(db.applications)[appId := ApplicationFrom(user.id, jobId, s, store("resumes", s.resume.value))]
              && db.nextApplication == appId + 1
              && db.answers == Appended(old(db.answers), old(db.nextAnswer), rows)
              && db.nextAnswer == old(db.nextAnswer) + |rows|
              && db.jobs == old(db.jobs) && db.nextJob == old(db.nextJob) && db.fields == old(db.fields)
    ensures reply.Success? && s.fields.None? ==> db.answers == old(db.answers)
  {
    if user.role != "candidate" {
      return Failure(403, "Only candidates can apply");
    }
    if jobId !in db.jobs {
      return NotFound;
    }
    if !SubmissionValid(db.fields, s) {
      return Invalid;
    }
    if AlreadyApplied(db.applications, user.id, jobId) {
      return Failure(409, "You have already applied to this job.");
    }
    var resumePath := store("resumes", s.resume.value);
    var appId := db.nextApplication;
    var app := ApplicationFrom(user.id, jobId, s, resumePath);
    var items := ItemsOf(s);
    var answers, next := WriteAnswers(db.fields, jobId, appId, items, store, db.answers, db.nextAnswer);
    if fault {
      return Failure(500, "Application failed");
    }
    AnswersShape(db.fields, jobId, appId, items, |items|, store);
    ApplyKeepsTables(db.jobs.Keys, db.fields.rows.Keys, db.applications, appId, app,
                     db.answers, db.nextAnswer, AnswerRows(db.fields, jobId, appId, items, store));
    db.applications, db.nextApplication := db.applications[appId := app], appId + 1;
    db.answers, db.nextAnswer := answers, next;
    reply := Success(200, appId);
  }
}

=== FILE: Common.dfy ===
/** Definitions shared by the backend controllers and the frontend pages. */
module Common {

  datatype Option<T> = None | Some(value: T)

  /** What a controller action hands back to the HTTP layer.
      `Success` and `Failure` are the two ResponseHelper shapes; the other three
      are exceptions that escape the action and are rendered by the framework. */
  datatype Reply<T> =
    | Success(code: nat, data: T)      // ResponseHelper::success
    | Failure(code: nat, message: string)  // ResponseHelper::error
    | Invalid                          // ValidationException from $request->validate
    | NotFound                         // ModelNotFoundException from findOrFail
    | Thrown                           // an exception escaped a DB::transaction callback

  /** The authenticated actor as the session layer supplies it. */
  datatype User = User(id: nat, role: string)

  /** Characters PHP's trim() strips by default: " \t\n\r\0\x0B". */
  predicate PhpSpace(c: char) {
    c == ' ' || c == '\t' || c == '\n' || c == '\r' || c == '\0' || c == '\U{B}'
  }

  /** Laravel's `required` rejects a string whose PHP trim is empty. */
  predicate PhpBlank(s: string) {
    forall i :: 0 <= i < |s| ==> PhpSpace(s[i])
  }

  /** ECMAScript WhiteSpace and LineTerminator: what String.prototype.trim
      strips and what the regular-expression class \s matches. */
  predicate JsSpace(c: char) {
    c == '\t' || c == '\n' || c == '\U{B}' || c == '\U{C}' || c == '\r' || c == ' '
    || c == '\U{A0}' || c == '\U{1680}' || ('\U{2000}' <= c <= '\U{200A}')
    || c == '\U{2028}' || c == '\U{2029}' || c == '\U{202F}' || c == '\U{205F}'
    || c == '\U{3000}' || c == '\U{FEFF}'
  }

  /** Drops leading JavaScript whitespace. */
  function TrimStart(s: string): (r: string)
    ensures |r| <= |s| && r == s[|s| - |r|..]
    ensures r == [] || !JsSpace(r[0])
    ensures forall i :: 0 <= i < |s| - |r| ==> JsSpace(s[i])
  {
    if s != [] && JsSpace(s[0]) then TrimStart(s[1..]) else s
  }

  /** Drops trailing JavaScript whitespace. */
  function TrimEnd(s: string): (r: string)
    ensures |r| <= |s| && r == s[..|r|]
    ensures r == [] || !JsSpace(r[|r| - 1])
    ensures forall i :: |r| <= i < |s| ==> JsSpace(s[i])
  {
    if s != [] && JsSpace(s[|s| - 1]) then TrimEnd(s[..|s| - 1]) else s
  }

  /** String.prototype.trim. */
  function Trim(s: string): string {
    TrimEnd(TrimStart(s))
  }

  /** `!s.trim()` in JavaScript: the string is empty once trimmed. */
  lemma TrimEmptyIffAllSpace(s: string)
    ensures Trim(s) == [] <==> forall i :: 0 <= i < |s| ==> JsSpace(s[i])
  {
    var t := TrimStart(s);
    if Trim(s) == [] {
      forall i | 0 <= i < |s| ensures JsSpace(s[i]) {
        if i >= |s| - |t| {
          assert s[i] == t[i - (|s| - |t|)];
        }
      }
    } else {
      var r := Trim(s);
      assert r == t[..|r|];
      assert !JsSpace(r[|r| - 1]);
      assert s[|s| - |t| + |r| - 1] == r[|r| - 1];
    }
  }

  predicate StartsWith(s: string, prefix: string) {
    |prefix| <= |s| && s[..|prefix|] == prefix
  }

  /** `xs` inserted one after another into an auto-increment table whose
      counter stands at `next`. */
  function Appended<T>(m: map<nat, T>, next: nat, xs: seq<T>): map<nat, T>
    decreases |xs|
  {
    if xs == [] then m
    else Appended(m, next, xs[..|xs| - 1])[next + |xs| - 1 := xs[|xs| - 1]]
  }

  /** Appending one more element writes it under the next key. */
  lemma AppendedSnoc<T>(m: map<nat, T>, next: nat, xs: seq<T>, i: nat)
    requires i < |xs|
    ensures Appended(m, next, xs[..i + 1]) == Appended(m, next, xs[..i])[next + i := xs[i]]
  {
    assert xs[..i + 1][..i] == xs[..i];
  }

  /** Appending an element at the end writes it under the next key. */
  lemma AppendedPush<T>(m: map<nat, T>, next: nat, xs: seq<T>, x: T)
    ensures Appended(m, next, xs + [x]) == Appended(m, next, xs)[next + |xs| := x]
  {
    assert (xs + [x])[..|xs|] == xs;
  }

  /** Appending adds exactly the keys `next`, …, `next + |xs| - 1`, holding the
      elements of `xs` in order, and leaves every key below `next` as it was. */
  lemma {:induction false} AppendedEffect<T>(m: map<nat, T>, next: nat, xs: seq<T>)
    requires forall k :: k in m ==> k < next
    ensures var r := Appended(m, next, xs);
            && (forall k :: k in r <==> k in m || next <= k < next + |xs|)
            && (forall k :: k in m ==> r[k] == m[k])
            && (forall i :: 0 <= i < |xs| ==> r[next + i] == xs[i])
  {
    if xs != [] {
      var p := xs[..|xs| - 1];
      assert forall i :: 0 <= i < |p| ==> p[i] == xs[i];
      AppendedEffect(m, next, p);
    }
  }
}

=== FILE: FieldEditor.dfy ===
/** The custom-field editor of the employer's "create job post" page: a list of
    drafts that the buttons add to, edit, remove and reorder; the checks run
    before submission; and the request body built from the drafts. */
module FieldEditor {
  import opened Common
  import opened FieldRules
  import opened RequestCleaning

  /** One custom field as the page holds it before submission. */
  datatype Draft = Draft(
    fieldName: string,
    fieldType: string,
    isRequired: bool,
    order: int,
    description: string,
    options: seq<string>)

  /** The draft `addField` appends to a list of `n` drafts. */
  function BlankDraft(n: nat): Draft {
    Draft("", "text", false, n + 1, "", [])
  }

  /** Every draft's `order` is its position counted from 1. */
  predicate Numbered(fs: seq<Draft>) {
    forall k :: 0 <= k < |fs| ==> fs[k].order == k + 1
  }

  /** A draft with its position number blanked out: what a reorder must keep. */
  function Content(d: Draft): Draft {
    d.(order := 0)
  }

  function Contents(fs: seq<Draft>): (r: seq<Draft>)
    ensures |r| == |fs|
  {
    seq(|fs|, k requires 0 <= k < |fs| => Content(fs[k]))
  }

  /** `updated.map((f, idx) => ({ ...f, order: idx + 1 }))`. */
  function Renumbered(fs: seq<Draft>): (r: seq<Draft>)
    ensures Numbered(r) && Contents(r) == Contents(fs)
  {
    seq(|fs|, k requires 0 <= k < |fs| => fs[k].(order := k + 1))
  }

  /** A list already numbered is its own renumbering. */
  lemma RenumberedNumbered(fs: seq<Draft>)
    requires Numbered(fs)
    ensures Renumbered(fs) == fs
  {
  }

  function Swapped(fs: seq<Draft>, i: nat, j: nat): (r: seq<Draft>)
    requires i < |fs| && j < |fs|
  {
    fs[i := fs[j]][j := fs[i]]
  }

  // ---------------------------------------------------------------------------
  // The list operations

  /** `addField`. */
  function WithNewDraft(fs: seq<Draft>): seq<Draft> {
    fs + [BlankDraft(|fs|)]
  }

  /** `removeField(i)`: splice out draft `i`, then renumber. */
  function Without(fs: seq<Draft>, i: nat): seq<Draft>
    requires i < |fs|
  {
    Renumbered(fs[..i] + fs[i + 1..])
  }

  /** The move-up button of row `i`. */
  function MovedUp(fs: seq<Draft>, i: nat): seq<Draft>
    requires i < |fs|
  {
    if i > 0 then Renumbered(Swapped(fs, i - 1, i)) else fs
  }

  /** The move-down button of row `i`. */
  function MovedDown(fs: seq<Draft>, i: nat): seq<Draft>
    requires i < |fs|
  {
    if i < |fs| - 1 then Renumbered(Swapped(fs, i, i + 1)) else fs
  }

  /** The five keys the page's inputs pass to `updateField`, with their values. */
  datatype Edit =
    | SetName(name: string)
    | SetDescription(text: string)
    | SetOptions(options: seq<string>)
    | SetType(tag: string)
    | SetRequired(required: bool)

  /** `updated[index][key] = value` on one draft: only the edited key changes. */
  function Edited(d: Draft, e: Edit): (r: Draft)
    ensures r.order == d.order
    ensures !e.SetName? ==> r.fieldName == d.fieldName
    ensures !e.SetDescription? ==> r.description == d.description
    ensures !e.SetOptions? ==> r.options == d.options
    ensures !e.SetType? ==> r.fieldType == d.fieldType
    ensures !e.SetRequired? ==> r.isRequired == d.isRequired
    ensures e.SetName? ==> r.fieldName == e.name
    ensures e.SetDescription? ==> r.description == e.text
    ensures e.SetOptions? ==> r.options == e.options
    ensures e.SetType? ==> r.fieldType == e.tag
    ensures e.SetRequired? ==> r.isRequired == e.required
  {
    match e
    case SetName(s) => d.(fieldName := s)
    case SetDescription(s) => d.(description := s)
    case SetOptions(xs) => d.(options := xs)
    case SetType(s) => d.(fieldType := s)
    case SetRequired(b) => d.(isRequired := b)
  }

  /** `addField` appends exactly one blank draft numbered after the others and
      leaves the earlier drafts as they were. */
  lemma AddFieldEffect(fs: seq<Draft>)
    ensures var r := WithNewDraft(fs);
            && |r| == |fs| + 1 && r[..|fs|] == fs
            && r[|fs|].fieldType == "text" && !r[|fs|].isRequired && r[|fs|].options == []
            && r[|fs|].order == |fs| + 1
            && (Numbered(fs) ==> Numbered(r))
  {
    assert WithNewDraft(fs)[..|fs|] == fs;
  }

  /** `removeField(i)` removes exactly draft `i`, keeps the others in their
      relative order, and numbers the result 1..n-1. */
  lemma RemoveFieldEffect(fs: seq<Draft>, i: nat)
    requires i < |fs|
    ensures var r := Without(fs, i);
            && |r| == |fs| - 1 && Numbered(r)
            && (forall k :: 0 <= k < i ==> Content(r[k]) == Content(fs[k]))
            && (forall k :: i <= k < |r| ==> Content(r[k]) == Content(fs[k + 1]))
  {
    var rest := fs[..i] + fs[i + 1..];
    assert forall k :: 0 <= k < |Without(fs, i)| ==> Without(fs, i)[k] == rest[k].(order := k + 1);
  }

  /** Moving up at `i > 0` swaps drafts `i - 1` and `i`; moving down at
      `i < n - 1` swaps `i` and `i + 1`; both renumber. At the ends nothing
      changes. */
  lemma MoveEffect(fs: seq<Draft>, i: nat)
    requires i < |fs|
    ensures i > 0 ==> Numbered(MovedUp(fs, i)) && Contents(MovedUp(fs, i)) == Swapped(Contents(fs), i - 1, i)
    ensures i == 0 ==> MovedUp(fs, i) == fs
    ensures i < |fs| - 1 ==> Numbered(MovedDown(fs, i)) && Contents(MovedDown(fs, i)) == Swapped(Contents(fs), i, i + 1)
    ensures i == |fs| - 1 ==> MovedDown(fs, i) == fs
  {
    if i > 0 {
      assert Contents(Swapped(fs, i - 1, i)) == Swapped(Contents(fs), i - 1, i);
    }
    if i < |fs| - 1 {
      assert Contents(Swapped(fs, i, i + 1)) == Swapped(Contents(fs), i, i + 1);
    }
  }

  /** On a numbered list, moving a draft down undoes moving it up. */
  lemma MoveDownUndoesMoveUp(fs: seq<Draft>, i: nat)
    requires Numbered(fs) && 0 < i < |fs|
    ensures MovedDown(MovedUp(fs, i), i - 1) == fs
  {
    var u := MovedUp(fs, i);
    var s := Swapped(u, i - 1, i);
    assert forall k :: 0 <= k < |fs| ==> s[k].(order := k + 1) == fs[k];
  }

  // ---------------------------------------------------------------------------
  // The editor's state

  /** The page's `fields` state and the handlers that replace it. */
  class FieldListEditor {
    var fields: seq<Draft>

    constructor ()
      ensures fields == []
    {
      fields := [];
    }

    method AddField()
      modifies this
      ensures fields == WithNewDraft(old(fields))
    {
      fields := fields + [BlankDraft(|fields|)];
    }

    /** `updateField`: the copy shares the draft objects, so the edit lands on
        draft `i` in place. */
    method UpdateField(i: nat, e: Edit)
      requires i < |fields|
      modifies this
      ensures fields == old(fields)[i := Edited(old(fields)[i], e)]
    {
      var updated := fields;
      var d := updated[i];
      match e {
        case SetName(s) => d := d.(fieldName := s);
        case SetDescription(s) => d := d.(description := s);
        case SetOptions(xs) => d := d.(options := xs);
        case SetType(s) => d := d.(fieldType := s);
        case SetRequired(b) => d := d.(isRequired := b);
      }
      updated := updated[i := d];
      fields := updated;
    }

    method RemoveField(i: nat)
      requires i < |fields|
      modifies this
      ensures fields == Without(old(fields), i)
    {
      var updated := fields[..i] + fields[i + 1..];
      fields := Renumbered(updated);
    }

    method MoveUp(i: nat)
      requires i < |fields|
      modifies this
      ensures fields == MovedUp(old(fields), i)
    {
      if i > 0 {
        var updated := fields;
        updated := updated[i - 1 := fields[i]][i := fields[i - 1]];
        fields := Renumbered(updated);
      }
    }

    method MoveDown(i: nat)
      requires i < |fields|
      modifies this
      ensures fields == MovedDown(old(fields), i)
    {
      if i < |fields| - 1 {
        var updated := fields;
        updated := updated[i := fields[i + 1]][i + 1 := fields[i]];
        fields := Renumbered(updated);
      }
    }
  }

  // ---------------------------------------------------------------------------
  // Any sequence of button presses

  /** One press of a button of the editor; the index names an existing row. */
  datatype EditorOp = Add | Update(i: nat, e: Edit) | Remove(i: nat) | Up(i: nat) | Down(i: nat)

  /** The list after one press; a press naming no existing row cannot occur on
      the page and leaves the list alone. */
  function Step(fs: seq<Draft>, op: EditorOp): seq<Draft> {
    match op
    case Add => WithNewDraft(fs)
    case Update(i, e) => if i < |fs| then fs[i := Edited(fs[i], e)] else fs
    case Remove(i) => if i < |fs| then Without(fs, i) else fs
    case Up(i) => if i < |fs| then MovedUp(fs, i) else fs
    case Down(i) => if i < |fs| then MovedDown(fs, i) else fs
  }

  function Run(fs: seq<Draft>, ops: seq<EditorOp>): seq<Draft>
    decreases |ops|
  {
    if ops == [] then fs else Run(Step(fs, ops[0]), ops[1..])
  }

  /** Every press keeps the drafts numbered by position. */
  lemma StepKeepsNumbered(fs: seq<Draft>, op: EditorOp)
    requires Numbered(fs)
    ensures Numbered(Step(fs, op))
  {
    match op
    case Add => AddFieldEffect(fs);
    case Update(i, e) =>
    case Remove(i) =>
    case Up(i) =>
    case Down(i) =>
  }

  /** Starting from the empty list, after any sequence of presses the draft at
      position k has order k + 1. */
  lemma {:induction false} RunKeepsNumbered(fs: seq<Draft>, ops: seq<EditorOp>)
    requires Numbered(fs)
    ensures Numbered(Run(fs, ops))
    decreases |ops|
  {
    if ops != [] {
      StepKeepsNumbered(fs, ops[0]);
      RunKeepsNumbered(Step(fs, ops[0]), ops[1..]);
    }
  }

  // ---------------------------------------------------------------------------
  // Submission

  /** The job-level inputs of the page; `None` is an empty selection. */
  datatype JobForm = JobForm(
    title: string,
    description: string,
    category: Option<nat>,
    typeId: Option<nat>,
    location: Option<nat>,
    locationType: Option<nat>)

  /** JavaScript truthiness of a selected id: empty and 0 are falsy. */
  predicate Picked(x: Option<nat>) {
    x.Some? && x.value != 0
  }

  /** The checks on the job-level inputs, in the order the page runs them. */
  function FormError(f: JobForm): (err: Option<string>)
    ensures err.None? <==>
              Trim(f.title) != [] && Trim(f.description) != [] && Picked(f.category) &&
              Picked(f.typeId) && Picked(f.location) && Picked(f.locationType)
  {
    if Trim(f.title) == [] then Some("Job title is required")
    else if Trim(f.description) == [] then Some("Job description is required")
    else if !Picked(f.category) then Some("Job category is required")
    else if !Picked(f.typeId) then Some("Job type is required")
    else if !Picked(f.location) then Some("Job location is required")
    else if !Picked(f.locationType) then Some("Location type is required")
    else None
  }

  /** A draft passes the page's checks: a non-blank name, a type when it is
      marked required, and at least one option when it is a select field. */
  predicate DraftOk(d: Draft) {
    && Trim(d.fieldName) != []
    && !(d.isRequired && d.fieldType == "")
    && !(d.fieldType == "select" && |d.options| == 0)
  }

  /** The checks on one draft, in the order the page runs them. */
  function DraftError(d: Draft): (err: Option<string>)
    ensures err.None? <==> DraftOk(d)
  {
    if Trim(d.fieldName) == [] then Some("Custom field name is required")
    else if d.isRequired && d.fieldType == "" then Some("Field type is required for " + d.fieldName)
    else if d.fieldType == "select" && |d.options| == 0 then Some("Options are required for select field " + d.fieldName)
    else None
  }

  /** The position of the first draft at or after `i` that fails its checks,
      or the length of the list when none does. */
  function FirstFailing(fs: seq<Draft>, i: nat): (k: nat)
    requires i <= |fs|
    ensures i <= k <= |fs|
    ensures forall j :: i <= j < k ==> DraftOk(fs[j])
    ensures k < |fs| ==> !DraftOk(fs[k])
    decreases |fs| - i
  {
    if i == |fs| || !DraftOk(fs[i]) then i else FirstFailing(fs, i + 1)
  }

  /** The error the drafts loop reports: that of the first failing draft. The
      drafts pass exactly when every one of them does. */
  function DraftsError(fs: seq<Draft>): (err: Option<string>)
    ensures err.None? <==> forall k :: 0 <= k < |fs| ==> DraftOk(fs[k])
  {
    var k := FirstFailing(fs, 0);
    if k < |fs| then DraftError(fs[k]) else None
  }

  /** A draft the page lets through has a non-blank name, and a select draft
      has at least one option. */
  lemma AcceptedDraft(d: Draft)
    requires DraftOk(d)
    ensures exists k :: 0 <= k < |d.fieldName| && !JsSpace(d.fieldName[k])
    ensures d.fieldType == "select" ==> d.options != []
  {
    TrimEmptyIffAllSpace(d.fieldName);
  }

  /** The `for (const field of fields)` loop: returns at the first failing draft. */
  method CheckDrafts(fs: seq<Draft>) returns (err: Option<string>)
    ensures err == DraftsError(fs)
  {
    var i := 0;
    while i < |fs|
      invariant 0 <= i <= |fs|
      invariant forall j :: 0 <= j < i ==> DraftOk(fs[j])
    {
      var e := DraftError(fs[i]);
      if e.Some? {
        assert FirstFailing(fs, 0) == i;
        return e;
      }
      i := i + 1;
    }
    return None;
  }

  /** The options as a JSON array of strings. */
  function OptionElements(xs: seq<string>): (r: seq<Option<string>>)
    ensures |r| == |xs|
  {
    seq(|xs|, k requires 0 <= k < |xs| => Some(xs[k]))
  }

  /** One element of the request's `fields` array as the page sends it: the
      description goes under `description`. */
  function PayloadItemAsWritten(d: Draft): map<string, Json> {
    map["field_name" := JStr(d.fieldName), "field_type" := JStr(d.fieldType),
        "is_required" := JBool(d.isRequired), "status" := JBool(true),
        "description" := JStr(d.description), "order" := JInt(d.order)]
    + (if d.fieldType == "select" then map["options" := JArray(OptionElements(d.options))] else map[])
  }

  /** The same element with the description under `field_description`, the key
      the job-post endpoints read. */
  function PayloadItem(d: Draft): map<string, Json> {
    map["field_name" := JStr(d.fieldName), "field_type" := JStr(d.fieldType),
        "is_required" := JBool(d.isRequired), "status" := JBool(true),
        "field_description" := JStr(d.description), "order" := JInt(d.order)]
    + (if d.fieldType == "select" then map["options" := JArray(OptionElements(d.options))] else map[])
  }

  /** Every element is sent with status true, and carries `options` exactly
      when it is a select field. */
  lemma PayloadItemShape(d: Draft)
    ensures PayloadItem(d)["status"] == JBool(true)
    ensures "options" in PayloadItem(d) <==> d.fieldType == "select"
    ensures "options" in PayloadItem(d) ==> PayloadItem(d)["options"] == JArray(OptionElements(d.options))
  {
  }

  /** The element the endpoints read from a draft's request element once the
      middleware has run: name, type and options trimmed, a blank one null. A
      blank name or type is refused (`required_with`, `string`). */
  function Arrived(d: Draft, description: Option<string>): Option<FieldItem> {
    var name := CleanString(d.fieldName);
    var tag := CleanString(d.fieldType);
    if name.None? || tag.None? then None
    else Some(FieldItem(None, name, description, tag, Some(d.isRequired), Some(true), Some(d.order),
                        if d.fieldType == "select" then List(CleanElements(OptionElements(d.options))) else Missing))
  }

  /** A string value after the middleware. */
  function CleanedStr(s: string): (r: Json)
    ensures r == CleanValue(JStr(s))
  {
    if CleanString(s).None? then JNull else JStr(CleanString(s).value)
  }

  /** What the middleware makes of each key of the page's element. */
  lemma CleanedPayloadAsWritten(d: Draft)
    ensures var c := Cleaned(PayloadItemAsWritten(d));
            && "id" !in c && "field_description" !in c
            && c["field_name"] == CleanedStr(d.fieldName) && c["field_type"] == CleanedStr(d.fieldType)
            && c["is_required"] == JBool(d.isRequired) && c["status"] == JBool(true) && c["order"] == JInt(d.order)
            && ("options" in c <==> d.fieldType == "select")
            && ("options" in c ==> c["options"] == JArray(CleanElements(OptionElements(d.options))))
  {
  }

  /** What the middleware makes of each key of the corrected element. */
  lemma CleanedPayload(d: Draft)
    ensures var c := Cleaned(PayloadItem(d));
            && "id" !in c && c["field_description"] == CleanedStr(d.description)
            && c["field_name"] == CleanedStr(d.fieldName) && c["field_type"] == CleanedStr(d.fieldType)
            && c["is_required"] == JBool(d.isRequired) && c["status"] == JBool(true) && c["order"] == JInt(d.order)
            && ("options" in c <==> d.fieldType == "select")
            && ("options" in c ==> c["options"] == JArray(CleanElements(OptionElements(d.options))))
  {
  }

  /** As written, the endpoints read every element without its description. */
  lemma DescriptionDroppedAsWritten(d: Draft)
    ensures ReceivedItem(Cleaned(PayloadItemAsWritten(d))) == Arrived(d, None)
  {
    CleanedPayloadAsWritten(d);
  }

  /** With the corrected key the description arrives: trimmed, null when blank,
      and as typed when it has nothing to trim. */
  lemma DescriptionKept(d: Draft)
    ensures ReceivedItem(Cleaned(PayloadItem(d))) == Arrived(d, CleanString(d.description))
    ensures Arrived(d, CleanString(d.description)).Some? ==>
              var desc := Arrived(d, CleanString(d.description)).value.description;
              && (desc.None? <==> forall i :: 0 <= i < |d.description| ==> TrimmedSpace(d.description[i]))
              && (d.description != [] && Stripped(d.description) ==> desc == Some(d.description))
  {
    CleanedPayload(d);
    CleanStringEffect(d.description);
  }

  /** A draft the page lets through, whose type is one of the column's tags,
      whose name fits 255 characters, holds no NUL and holds a character the
      middleware does not strip, arrives (with the corrected key) as an element
      the endpoints accept. */
  lemma AcceptedDraftArrivesValid(d: Draft)
    requires DraftOk(d) && d.fieldType in FieldTypeTags
    requires |d.fieldName| <= 255 && '\0' !in d.fieldName
    requires exists k :: 0 <= k < |d.fieldName| && !TrimmedSpace(d.fieldName[k])
    ensures ReceivedItem(Cleaned(PayloadItem(d))).Some? && ItemValid(ReceivedItem(Cleaned(PayloadItem(d))).value)
  {
    DescriptionKept(d);
    ArrivedValid(d, CleanString(d.description));
  }

  /** The six type tags have nothing for the middleware to strip. */
  lemma TagArrivesUnchanged(t: string)
    requires t in FieldTypeTags
    ensures CleanString(t) == Some(t)
  {
    assert t == "text" || t == "textarea" || t == "number" || t == "date" || t == "file" || t == "select";
    assert t[0] == 't' || t[0] == 'n' || t[0] == 'd' || t[0] == 'f' || t[0] == 's';
    assert t[|t| - 1] == 't' || t[|t| - 1] == 'a' || t[|t| - 1] == 'r' || t[|t| - 1] == 'e';
    assert t != [] && Stripped(t);
    CleanStringEffect(t);
  }

  /** A draft the page lets through, with a known tag and a name the
      middleware does not blank out, reads as an element the endpoints accept,
      whatever its description. */
  lemma ArrivedValid(d: Draft, description: Option<string>)
    requires DraftOk(d) && d.fieldType in FieldTypeTags
    requires |d.fieldName| <= 255 && '\0' !in d.fieldName
    requires exists k :: 0 <= k < |d.fieldName| && !TrimmedSpace(d.fieldName[k])
    ensures Arrived(d, description).Some? && ItemValid(Arrived(d, description).value)
  {
    AcceptedDraft(d);
    CleanStringEffect(d.fieldType);
    CleanStringEffect(d.fieldName);
    TagArrivesUnchanged(d.fieldType);
    var name := CleanString(d.fieldName);
    assert name.Some?;
    assert name.value[0] == d.fieldName[LeadingSpace(d.fieldName)];
    assert !PhpSpace(name.value[0]);
    var item := Arrived(d, description).value;
    assert NameRule(item);
  }

  /** What the submit button does: the first error is reported and nothing is
      sent, or the request body is built. */
  datatype Submit =
    | Blocked(message: string)
    | Send(title: string, description: string, categoryId: nat, typeId: nat, locationId: nat,
           locationTypeId: nat, fields: seq<map<string, Json>>)

  function HandleSubmit(f: JobForm, fs: seq<Draft>): (r: Submit)
    ensures r.Blocked? <==> FormError(f).Some? || DraftsError(fs).Some?
    ensures FormError(f).Some? ==> r == Blocked(FormError(f).value)
    ensures r.Send? ==> |r.fields| == |fs| && r.title == f.title && r.description == f.description
    ensures r.Send? ==> && f.category.Some? && r.categoryId == f.category.value
                        && f.typeId.Some? && r.typeId == f.typeId.value
                        && f.location.Some? && r.locationId == f.location.value
                        && f.locationType.Some? && r.locationTypeId == f.locationType.value
  {
    if FormError(f).Some? then Blocked(FormError(f).value)
    else if DraftsError(fs).Some? then Blocked(DraftsError(fs).value)
    else Send(f.title, f.description, f.category.value, f.typeId.value, f.location.value,
              f.locationType.value, seq(|fs|, k requires 0 <= k < |fs| => PayloadItem(fs[k])))
  }

  /** A request is built only when every draft passes its checks, and then the
      k-th element of `fields` is the k-th draft. */
  lemma SubmitSendsCheckedDrafts(f: JobForm, fs: seq<Draft>)
    ensures HandleSubmit(f, fs).Send? ==>
              forall k :: 0 <= k < |fs| ==> DraftOk(fs[k]) && HandleSubmit(f, fs).fields[k] == PayloadItem(fs[k])
  {
  }

  // ---------------------------------------------------------------------------
  // Options edited as text

  /** `s.split(",")`. */
  function SplitCommas(s: string): (r: seq<string>)
    ensures |r| >= 1
    decreases |s|
  {
    if s == [] then [""]
    else
      var rest := SplitCommas(s[1..]);
      if s[0] == ',' then [""] + rest else [[s[0]] + rest[0]] + rest[1..]
  }

  /** `pieces.join(",")`. */
  function JoinCommas(pieces: seq<string>): string
    decreases |pieces|
  {
    if pieces == [] then ""
    else if |pieces| == 1 then pieces[0]
    else pieces[0] + "," + JoinCommas(pieces[1..])
  }

  /** The pieces of `split(",")` hold no comma and, joined with commas again,
      give back the text. */
  lemma {:induction false} SplitCommasJoin(s: string)
    ensures forall k :: 0 <= k < |SplitCommas(s)| ==> ',' !in SplitCommas(s)[k]
    ensures JoinCommas(SplitCommas(s)) == s
    decreases |s|
  {
    if s != [] {
      var rest := SplitCommas(s[1..]);
      SplitCommasJoin(s[1..]);
      if s[0] == ',' {
        assert SplitCommas(s)[1..] == rest;
        assert JoinCommas(SplitCommas(s)) == "" + "," + JoinCommas(rest);
        assert s == [s[0]] + s[1..];
      } else {
        var head := [s[0]] + rest[0];
        assert ',' !in head by {
          assert forall c :: c in head ==> c == s[0] || c in rest[0];
        }
        var r := SplitCommas(s);
        assert r == [head] + rest[1..];
        if |rest| == 1 {
          assert JoinCommas(r) == head;
          assert JoinCommas(rest) == rest[0];
        } else {
          assert r[1..] == rest[1..];
          assert JoinCommas(r) == head + "," + JoinCommas(rest[1..]);
          assert JoinCommas(rest) == rest[0] + "," + JoinCommas(rest[1..]);
        }
        assert s == [s[0]] + s[1..];
      }
    }
  }

  /** Splitting comma-free pieces joined with commas gives the pieces back. */
  lemma {:induction false} JoinCommasSplit(pieces: seq<string>)
    requires pieces != []
    requires forall k :: 0 <= k < |pieces| ==> ',' !in pieces[k]
    ensures SplitCommas(JoinCommas(pieces)) == pieces
    decreases |pieces|
  {
    if |pieces| == 1 {
      SplitPrefix(pieces[0], "");
      assert pieces[0] + "" == pieces[0];
    } else {
      var tail := JoinCommas(pieces[1..]);
      JoinCommasSplit(pieces[1..]);
      assert JoinCommas(pieces) == pieces[0] + ("," + tail);
      SplitPrefix(pieces[0], "," + tail);
      assert SplitCommas("," + tail) == [""] + SplitCommas(tail) by {
        assert ("," + tail)[1..] == tail;
      }
      assert pieces[0] + "" == pieces[0];
      Cons(pieces);
    }
  }

  /** The options box's `onChange`: split on commas and trim every piece. */
  function ParseOptions(s: string): seq<string> {
    TrimAll(SplitCommas(s))
  }

  /** `.map((v) => v.trim())`. */
  function TrimAll(parts: seq<string>): (r: seq<string>)
    ensures |r| == |parts|
  {
    if parts == [] then [] else [Trim(parts[0])] + TrimAll(parts[1..])
  }

  /** The options box's value: `options.join(", ")`. */
  function DisplayOptions(xs: seq<string>): string
    decreases |xs|
  {
    if xs == [] then ""
    else if |xs| == 1 then xs[0]
    else xs[0] + ", " + DisplayOptions(xs[1..])
  }

  /** Splitting text that begins with a comma-free `a` puts `a` at the head of
      the first piece. */
  lemma {:induction false} SplitPrefix(a: string, b: string)
    requires ',' !in a
    ensures SplitCommas(a + b) == [a + SplitCommas(b)[0]] + SplitCommas(b)[1..]
    decreases |a|
  {
    if a == [] {
      assert a + b == b;
      assert a + SplitCommas(b)[0] == SplitCommas(b)[0];
      assert [SplitCommas(b)[0]] + SplitCommas(b)[1..] == SplitCommas(b);
    } else {
      assert a[0] in a;
      assert (a + b)[0] == a[0] && (a + b)[1..] == a[1..] + b;
      assert forall c :: c in a[1..] ==> c in a;
      SplitPrefix(a[1..], b);
      assert [a[0]] + (a[1..] + SplitCommas(b)[0]) == a + SplitCommas(b)[0];
    }
  }

  /** The option neither starts nor ends with whitespace. */
  predicate Tidy(x: string) {
    x == [] || (!JsSpace(x[0]) && !JsSpace(x[|x| - 1]))
  }

  /** Trimming a tidy option, with or without the joining space in front,
      gives the option back. */
  lemma TrimTidy(x: string)
    requires Tidy(x)
    ensures Trim(x) == x && Trim(" " + x) == x
  {
    assert (" " + x)[1..] == x;
    if x != [] {
      assert x[..|x|] == x;
    }
  }

  /** Every piece after the first, as `join(", ")` leaves it: with one space
      in front. */
  function Spaced(ys: seq<string>): seq<string>
    decreases |ys|
  {
    if ys == [] then [] else [" " + ys[0]] + Spaced(ys[1..])
  }

  /** Splitting the joined text gives back the options, each after the first
      with its leading space. */
  lemma {:induction false} SplitDisplay(xs: seq<string>)
    requires xs != []
    requires forall k :: 0 <= k < |xs| ==> ',' !in xs[k]
    ensures SplitCommas(DisplayOptions(xs)) == [xs[0]] + Spaced(xs[1..])
    decreases |xs|
  {
    if |xs| == 1 {
      SplitPrefix(xs[0], "");
      assert xs[0] + "" == xs[0];
    } else {
      var tail := DisplayOptions(xs[1..]);
      SplitDisplay(xs[1..]);
      var ps := SplitCommas(tail);
      assert DisplayOptions(xs) == xs[0] + (", " + tail);
      SplitPrefix(xs[0], ", " + tail);
      assert SplitCommas(", " + tail) == [""] + SplitCommas(" " + tail) by {
        assert (", " + tail)[1..] == " " + tail;
      }
      SplitPrefix(" ", tail);
      var q := SplitCommas(", " + tail);
      assert q == [""] + ([" " + ps[0]] + ps[1..]);
      assert xs[0] + q[0] == xs[0];
      assert xs[1..][1..] == xs[2..];
      assert ps[1..] == Spaced(xs[2..]);
      assert Spaced(xs[1..]) == [" " + xs[1..][0]] + Spaced(xs[1..][1..]);
    }
  }

  /** Showing a list of options and reading the box back gives the same list,
      provided the list is not empty and no option contains a comma or has
      surrounding whitespace. */
  lemma OptionsRoundTrip(xs: seq<string>)
    requires xs != []
    requires forall k :: 0 <= k < |xs| ==> ',' !in xs[k] && Tidy(xs[k])
    ensures ParseOptions(DisplayOptions(xs)) == xs
  {
    SplitDisplay(xs);
    var parts := [xs[0]] + Spaced(xs[1..]);
    var head := Trim(parts[0]);
    var rest := TrimAll(parts[1..]);
    assert head == xs[0] by {
      TrimTidy(xs[0]);
    }
    assert rest == xs[1..] by {
      assert parts[1..] == Spaced(xs[1..]);
      TrimAllSpaced(xs[1..]);
    }
    assert ParseOptions(DisplayOptions(xs)) == [head] + rest;
    Cons(xs);
  }

  /** Trimming undoes the space `join(", ")` puts in front of an option that
      has no surrounding whitespace. */
  lemma {:induction false} TrimAllSpaced(ys: seq<string>)
    requires forall k :: 0 <= k < |ys| ==> Tidy(ys[k])
    ensures TrimAll(Spaced(ys)) == ys
    decreases |ys|
  {
    if ys != [] {
      var sp := Spaced(ys);
      var head := Trim(sp[0]);
      var rest := TrimAll(sp[1..]);
      assert head == ys[0] by {
        assert sp[0] == " " + ys[0];
        TrimTidy(ys[0]);
      }
      assert rest == ys[1..] by {
        assert sp[1..] == Spaced(ys[1..]);
        TrimAllSpaced(ys[1..]);
      }
      assert TrimAll(sp) == [head] + rest;
      Cons(ys);
    }
  }

  /** A non-empty sequence is its head followed by its tail. */
  lemma Cons<T>(s: seq<T>)
    requires s != []
    ensures s == [s[0]] + s[1..]
  {
  }

  /** Clearing the options box leaves one empty option. The page's check (a
      non-empty list) lets it through; the middleware turns it into `[null]`,
      which the endpoints' rule (a non-empty array) lets through as well. */
  lemma ClearedOptionsBoxGivesOneEmptyOption()
    ensures ParseOptions("") == [""]
    ensures var d := Draft("Shift", "select", false, 1, "", ParseOptions(""));
            && DraftOk(d)
            && ReceivedItem(Cleaned(PayloadItem(d))).Some?
            && ReceivedItem(Cleaned(PayloadItem(d))).value.options == List([None])
            && ItemValid(ReceivedItem(Cleaned(PayloadItem(d))).value)
  {
    var d := Draft("Shift", "select", false, 1, "", ParseOptions(""));
    assert !JsSpace(d.fieldName[0]);
    TrimEmptyIffAllSpace(d.fieldName);
    assert !TrimmedSpace(d.fieldName[0]);
    AcceptedDraftArrivesValid(d);
    DescriptionKept(d);
    assert CleanString("") == None;
    assert CleanElements(OptionElements([""])) == [None];
  }
}

=== FILE: FieldReconcile.dfy ===
/** What `store` and `update` do to the job_application_fields table, stated as
    functions of the old table and the submitted `fields` array, with the
    properties the controller promises proved about them. */
module FieldReconcile {
  import opened Common
  import opened FieldRules

  /** The job_application_fields table and its auto-increment counter. */
  datatype FieldTable = FieldTable(rows: map<nat, FieldRow>, next: nat)

  /** Every stored id is below the counter, so the counter's value is unused. */
  predicate Fresh(t: FieldTable) {
    forall k :: k in t.rows ==> k < t.next
  }

  /** One element of `fields` as the loop body sees it: the id it carries, if
      any, and the attribute array built from it. */
  datatype Entry = Entry(id: Option<nat>, row: FieldRow)

  predicate AllStorable(items: seq<FieldItem>) {
    forall i :: 0 <= i < |items| ==> Storable(items[i])
  }

  /** The entries for a submitted `fields` array, in order. */
  function Entries(jobId: nat, items: seq<FieldItem>): (es: seq<Entry>)
    requires AllStorable(items)
    ensures |es| == |items|
    ensures forall i :: 0 <= i < |items| ==> es[i].id == items[i].id && es[i].row == RowFrom(jobId, items[i])
  {
    seq(|items|, i requires 0 <= i < |items| && AllStorable(items) => Entry(items[i].id, RowFrom(jobId, items[i])))
  }

  /** Every entry writes a row of job `jobId`. */
  predicate RowsOfJob(es: seq<Entry>, jobId: nat) {
    forall i :: 0 <= i < |es| ==> es[i].row.jobId == jobId
  }

  /** `fields.*.id` is `sometimes|exists:job_application_fields,id`: an id names a
      row of the table, of any job post. */
  predicate IdsKnown(t: FieldTable, es: seq<Entry>) {
    forall i :: 0 <= i < |es| && es[i].id.Some? ==> es[i].id.value in t.rows
  }

  /** `$existingIds`: the ids of the job's own fields. */
  function OwnIds(rows: map<nat, FieldRow>, jobId: nat): set<nat> {
    set k | k in rows && rows[k].jobId == jobId
  }

  lemma EntriesOfJob(jobId: nat, items: seq<FieldItem>)
    requires AllStorable(items)
    ensures RowsOfJob(Entries(jobId, items), jobId)
  {
  }

  // ---------------------------------------------------------------------------
  // store: one insert per item

  function RowsOf(es: seq<Entry>): (rows: seq<FieldRow>)
    ensures |rows| == |es| && forall i :: 0 <= i < |es| ==> rows[i] == es[i].row
  {
    seq(|es|, i requires 0 <= i < |es| => es[i].row)
  }

  /** Insert one row per entry, in order, ignoring any `id` key. */
  function InsertRows(t: FieldTable, es: seq<Entry>): FieldTable {
    FieldTable(Appended(t.rows, t.next, RowsOf(es)), t.next + |es|)
  }

  /** `store` adds exactly one fresh row per item, numbered in submission order,
      and leaves every existing row as it was. */
  lemma InsertRowsEffect(t: FieldTable, es: seq<Entry>)
    requires Fresh(t)
    ensures var u := InsertRows(t, es);
            && u.next == t.next + |es| && Fresh(u)
            && (forall k :: k in u.rows <==> k in t.rows || t.next <= k < u.next)
            && (forall k :: k in t.rows ==> u.rows[k] == t.rows[k])
            && (forall i :: 0 <= i < |es| ==> u.rows[t.next + i] == es[i].row)
  {
    AppendedEffect(t.rows, t.next, RowsOf(es));
  }

  // ---------------------------------------------------------------------------
  // update: the foreach over the submitted items

  /** One pass of the loop body: an entry with an id updates that row if it is
      one of this job's fields (the update is scoped to
      `$job->applicationFields()`), an entry without an id inserts a row. */
  function ApplyEntry(t: FieldTable, jobId: nat, e: Entry): FieldTable {
    match e.id
    case Some(id) =>
      if id in t.rows && t.rows[id].jobId == jobId
      then FieldTable(t.rows[id := e.row], t.next)
      else t
    case None => FieldTable(t.rows[t.next := e.row], t.next + 1)
  }

  /** The table after the loop has processed the first `k` entries. */
  function ApplyPrefix(t: FieldTable, jobId: nat, es: seq<Entry>, k: nat): FieldTable
    requires k <= |es|
  {
    if k == 0 then t else ApplyEntry(ApplyPrefix(t, jobId, es, k - 1), jobId, es[k - 1])
  }

  /** `$updatedIds` after the first `k` entries: the ids they carry, in order. */
  function IdsBefore(es: seq<Entry>, k: nat): seq<nat>
    requires k <= |es|
  {
    if k == 0 then []
    else IdsBefore(es, k - 1) + (if es[k - 1].id.Some? then [es[k - 1].id.value] else [])
  }

  /** The number of id-less entries among the first `k`. */
  function Rank(es: seq<Entry>, k: nat): nat
    requires k <= |es|
  {
    if k == 0 then 0 else Rank(es, k - 1) + (if es[k - 1].id.None? then 1 else 0)
  }

  /** The id the auto-increment counter gives the i-th entry if it has no id. */
  function NewId(t: FieldTable, es: seq<Entry>, i: nat): nat
    requires i <= |es|
  {
    t.next + Rank(es, i)
  }

  /** The position of the last of the first `k` entries that carries id `id`. */
  function LastBefore(es: seq<Entry>, k: nat, id: nat): (r: Option<nat>)
    requires k <= |es|
    ensures r.Some? ==> r.value < k && es[r.value].id == Some(id)
    ensures r.Some? ==> forall i :: r.value < i < k ==> es[i].id != Some(id)
    ensures r.None? ==> forall i :: 0 <= i < k ==> es[i].id != Some(id)
  {
    if k == 0 then None
    else if es[k - 1].id == Some(id) then Some(k - 1)
    else LastBefore(es, k - 1, id)
  }

  /** The position of the last entry carrying `id`. */
  function LastWith(es: seq<Entry>, id: nat): Option<nat> {
    LastBefore(es, |es|, id)
  }

  /** The rows `update` deletes: the job's fields whose ids no entry carried
      (`array_diff($existingIds, $updatedIds)`). */
  function Doomed(t: FieldTable, jobId: nat, es: seq<Entry>): set<nat> {
    OwnIds(t.rows, jobId) - (set k | k in IdsBefore(es, |es|))
  }

  /** The update step: run the loop over every entry, then delete the doomed rows. */
  function Reconcile(t: FieldTable, jobId: nat, es: seq<Entry>): FieldTable {
    var u := ApplyPrefix(t, jobId, es, |es|);
    FieldTable(u.rows - Doomed(t, jobId, es), u.next)
  }

  /** An id is in `$updatedIds` exactly when some processed entry carries it. */
  lemma {:induction false} IdsBeforeMembers(es: seq<Entry>, k: nat, id: nat)
    requires k <= |es|
    ensures id in IdsBefore(es, k) <==> LastBefore(es, k, id).Some?
  {
    if k > 0 {
      IdsBeforeMembers(es, k - 1, id);
    }
  }

  /** Two id-less entries get different positions among the new rows. */
  lemma {:induction false} RankStrict(es: seq<Entry>, i: nat, m: nat)
    requires i < m <= |es| && es[i].id.None?
    ensures Rank(es, i) < Rank(es, m)
  {
    if m > i + 1 {
      RankStrict(es, i, m - 1);
    }
  }

  /** The counter grows by one for each id-less entry. */
  lemma {:induction false} ApplyNext(t: FieldTable, jobId: nat, es: seq<Entry>, k: nat)
    requires k <= |es|
    ensures ApplyPrefix(t, jobId, es, k).next == t.next + Rank(es, k)
  {
    if k > 0 {
      ApplyNext(t, jobId, es, k - 1);
    }
  }

  /** The loop keeps every existing id and adds exactly the ids from the old
      counter up to the new one. */
  lemma {:induction false} ApplyKeys(t: FieldTable, jobId: nat, es: seq<Entry>, k: nat)
    requires Fresh(t) && IdsKnown(t, es) && k <= |es|
    ensures var u := ApplyPrefix(t, jobId, es, k);
            && u.next == t.next + Rank(es, k)
            && (forall x :: x in u.rows <==> x in t.rows || t.next <= x < u.next)
  {
    if k > 0 {
      ApplyKeys(t, jobId, es, k - 1);
      var e := es[k - 1];
      if e.id.Some? {
        assert e.id.value in t.rows;
      }
    }
  }

  /** What the loop leaves under an id that existed before it. */
  function OldRowAfter(t: FieldTable, jobId: nat, es: seq<Entry>, k: nat, x: nat): FieldRow
    requires x in t.rows && k <= |es|
  {
    var last := LastBefore(es, k, x);
    if t.rows[x].jobId == jobId && last.Some? then es[last.value].row else t.rows[x]
  }

  /** The loop's effect on one row that existed before it: a row of this job
      takes the attributes of the last entry naming it; every other row is as
      it was. */
  lemma {:induction false} ApplyOldRowAt(t: FieldTable, jobId: nat, es: seq<Entry>, k: nat, x: nat)
    requires Fresh(t) && RowsOfJob(es, jobId) && k <= |es| && x in t.rows
    ensures var u := ApplyPrefix(t, jobId, es, k);
            x in u.rows && u.rows[x] == OldRowAfter(t, jobId, es, k, x)
  {
    if k > 0 {
      ApplyOldRowAt(t, jobId, es, k - 1, x);
      ApplyNext(t, jobId, es, k - 1);
    }
  }

  /** The loop's effect on one row it inserts: the i-th entry, if it has no id,
      lands under the counter's old value plus the number of id-less entries
      before it, and later entries leave that row alone. */
  lemma {:induction false} ApplyNewRowAt(t: FieldTable, jobId: nat, es: seq<Entry>, k: nat, i: nat)
    requires Fresh(t) && IdsKnown(t, es) && i < k <= |es| && es[i].id.None?
    ensures var u := ApplyPrefix(t, jobId, es, k);
            t.next + Rank(es, i) in u.rows && u.rows[t.next + Rank(es, i)] == es[i].row
  {
    ApplyNext(t, jobId, es, k - 1);
    if i < k - 1 {
      ApplyNewRowAt(t, jobId, es, k - 1, i);
      match es[k - 1].id {
        case Some(y) => assert y in t.rows;
        case None => RankStrict(es, i, k - 1);
      }
    }
  }

  /** Every row the loop adds comes from some id-less entry. */
  lemma {:induction false} ApplyNewRowsFromEntries(t: FieldTable, jobId: nat, es: seq<Entry>, k: nat, x: nat)
    requires Fresh(t) && IdsKnown(t, es) && k <= |es|
    requires x in ApplyPrefix(t, jobId, es, k).rows && x !in t.rows
    ensures exists i :: 0 <= i < k && es[i].id.None? && ApplyPrefix(t, jobId, es, k).rows[x] == es[i].row
  {
    ApplyKeys(t, jobId, es, k - 1);
    var v := ApplyPrefix(t, jobId, es, k - 1);
    if x in v.rows {
      ApplyNewRowsFromEntries(t, jobId, es, k - 1, x);
      if es[k - 1].id.Some? {
        assert es[k - 1].id.value in t.rows;
      }
    }
  }

  // ---------------------------------------------------------------------------
  // The promises of `update`, one at a time

  /** The counter grows by the number of id-less entries and every id is either
      an old one or one of the new ones. */
  lemma ReconcileKeys(t: FieldTable, jobId: nat, es: seq<Entry>)
    requires Fresh(t) && IdsKnown(t, es)
    ensures var r := Reconcile(t, jobId, es);
      && r.next == t.next + Rank(es, |es|) && Fresh(r)
      && (forall x :: x in r.rows ==> x in t.rows || t.next <= x < r.next)
  {
    ApplyKeys(t, jobId, es, |es|);
  }

  /** `update` never touches another job post's fields. */
  lemma ReconcileOtherJobs(t: FieldTable, jobId: nat, es: seq<Entry>)
    requires Fresh(t) && RowsOfJob(es, jobId)
    ensures var r := Reconcile(t, jobId, es);
      forall x :: x in t.rows && t.rows[x].jobId != jobId ==> x in r.rows && r.rows[x] == t.rows[x]
  {
    forall x | x in t.rows && t.rows[x].jobId != jobId
      ensures x in Reconcile(t, jobId, es).rows && Reconcile(t, jobId, es).rows[x] == t.rows[x]
    {
      ApplyOldRowAt(t, jobId, es, |es|, x);
    }
  }

  /** A field of the job that some entry names keeps its id and takes the
      attributes of the last entry naming it. */
  lemma ReconcileNamed(t: FieldTable, jobId: nat, es: seq<Entry>)
    requires Fresh(t) && RowsOfJob(es, jobId)
    ensures var r := Reconcile(t, jobId, es);
      forall x :: x in t.rows && t.rows[x].jobId == jobId && LastWith(es, x).Some? ==>
        x in r.rows && r.rows[x] == es[LastWith(es, x).value].row
  {
    forall x | x in t.rows && t.rows[x].jobId == jobId && LastWith(es, x).Some?
      ensures x in Reconcile(t, jobId, es).rows
      ensures Reconcile(t, jobId, es).rows[x] == es[LastWith(es, x).value].row
    {
      ApplyOldRowAt(t, jobId, es, |es|, x);
      IdsBeforeMembers(es, |es|, x);
    }
  }

  /** A field of the job that no entry names is deleted. */
  lemma ReconcileUnnamed(t: FieldTable, jobId: nat, es: seq<Entry>)
    ensures var r := Reconcile(t, jobId, es);
      forall x :: x in t.rows && t.rows[x].jobId == jobId && LastWith(es, x).None? ==> x !in r.rows
  {
    forall x | x in t.rows && t.rows[x].jobId == jobId && LastWith(es, x).None?
      ensures x !in Reconcile(t, jobId, es).rows
    {
      IdsBeforeMembers(es, |es|, x);
      assert x in Doomed(t, jobId, es);
    }
  }

  /** Each id-less entry adds one row under a fresh id: the counter's old value
      plus the number of id-less entries before it. */
  lemma ReconcileNew(t: FieldTable, jobId: nat, es: seq<Entry>)
    requires Fresh(t) && IdsKnown(t, es)
    ensures var r := Reconcile(t, jobId, es);
      forall i {:trigger NewId(t, es, i)} :: 0 <= i < |es| && es[i].id.None? ==>
        && NewId(t, es, i) !in t.rows
        && NewId(t, es, i) in r.rows
        && r.rows[NewId(t, es, i)] == es[i].row
  {
    forall i | 0 <= i < |es| && es[i].id.None?
      ensures && NewId(t, es, i) !in t.rows
              && NewId(t, es, i) in Reconcile(t, jobId, es).rows
              && Reconcile(t, jobId, es).rows[NewId(t, es, i)] == es[i].row
    {
      ApplyNewRowAt(t, jobId, es, |es|, i);
      assert NewId(t, es, i) !in Doomed(t, jobId, es);
    }
  }

  /** The promises of `update` when the request carries a `fields` array:
      fields of other job posts, and this job's fields that an item names, keep
      their ids; a named field takes the attributes of the last item naming it;
      an unnamed field of the job is deleted; each id-less item adds one new row
      under a fresh id; no other row exists afterwards. An item whose id belongs
      to another job post changes nothing. */
  lemma ReconcileEffect(t: FieldTable, jobId: nat, es: seq<Entry>)
    requires Fresh(t) && IdsKnown(t, es) && RowsOfJob(es, jobId)
    ensures var r := Reconcile(t, jobId, es);
      && r.next == t.next + Rank(es, |es|) && Fresh(r)
      && (forall x :: x in t.rows && t.rows[x].jobId != jobId ==> x in r.rows && r.rows[x] == t.rows[x])
      && (forall x :: x in t.rows && t.rows[x].jobId == jobId && LastWith(es, x).Some? ==>
            x in r.rows && r.rows[x] == es[LastWith(es, x).value].row)
      && (forall x :: x in t.rows && t.rows[x].jobId == jobId && LastWith(es, x).None? ==> x !in r.rows)
      && (forall i {:trigger NewId(t, es, i)} :: 0 <= i < |es| && es[i].id.None? ==>
            && NewId(t, es, i) !in t.rows
            && NewId(t, es, i) in r.rows
            && r.rows[NewId(t, es, i)] == es[i].row)
      && (forall x :: x in r.rows ==> x in t.rows || t.next <= x < r.next)
  {
    ReconcileKeys(t, jobId, es);
    ReconcileOtherJobs(t, jobId, es);
    ReconcileNamed(t, jobId, es);
    ReconcileUnnamed(t, jobId, es);
    ReconcileNew(t, jobId, es);
  }

  lemma {:induction false} NoIdlessEntries(es: seq<Entry>, k: nat)
    requires k <= |es|
    requires forall i :: 0 <= i < |es| ==> es[i].id.Some?
    ensures Rank(es, k) == 0
  {
    if k > 0 {
      NoIdlessEntries(es, k - 1);
    }
  }

  /** Applying the same list twice gives the table the first application gave,
      when every item carries an id. (Id-less items insert new rows on every
      application, so in general the second result has different ids.) */
  lemma ReconcileIdempotentWhenIdentified(t: FieldTable, jobId: nat, es: seq<Entry>)
    requires Fresh(t) && IdsKnown(t, es) && RowsOfJob(es, jobId)
    requires forall i :: 0 <= i < |es| ==> es[i].id.Some?
    ensures var r1 := Reconcile(t, jobId, es);
            Reconcile(r1, jobId, es) == r1
  {
    var r1 := Reconcile(t, jobId, es);
    ReconcileEffect(t, jobId, es);
    NoIdlessEntries(es, |es|);
    assert IdsKnown(r1, es) by {
      forall i | 0 <= i < |es| && es[i].id.Some?
        ensures es[i].id.value in r1.rows
      {
        assert LastWith(es, es[i].id.value).Some?;
      }
    }
    var r2 := Reconcile(r1, jobId, es);
    ReconcileEffect(r1, jobId, es);
    forall x | x in r1.rows ensures x in r2.rows && r2.rows[x] == r1.rows[x] {
      assert x in t.rows;
      if t.rows[x].jobId == jobId {
        assert LastWith(es, x).Some?;
      }
    }
    assert r2.rows == r1.rows;
  }

  /** Submitting an empty `fields` array deletes every field of the job and
      nothing else. */
  lemma EmptyListClearsJob(t: FieldTable, jobId: nat)
    requires Fresh(t)
    ensures var r := Reconcile(t, jobId, []);
            && r.next == t.next
            && (forall x :: x in r.rows <==> x in t.rows && t.rows[x].jobId != jobId)
            && (forall x :: x in r.rows ==> r.rows[x] == t.rows[x])
  {
    ReconcileEffect(t, jobId, []);
  }

  /** An old row survives `update` exactly when it is not one of the doomed
      rows, and every row afterwards is an old row or a row built from an entry. */
  lemma ReconcileRowOrigin(t: FieldTable, jobId: nat, es: seq<Entry>, x: nat)
    requires Fresh(t) && IdsKnown(t, es) && RowsOfJob(es, jobId)
    ensures var r := Reconcile(t, jobId, es);
            && (x in t.rows ==> (x in r.rows <==> x !in Doomed(t, jobId, es)))
            && (x in r.rows ==>
                  || (x in t.rows && r.rows[x] == t.rows[x])
                  || exists i :: 0 <= i < |es| && r.rows[x] == es[i].row)
  {
    ApplyKeys(t, jobId, es, |es|);
    if x in t.rows {
      ApplyOldRowAt(t, jobId, es, |es|, x);
    } else if x in Reconcile(t, jobId, es).rows {
      ApplyNewRowsFromEntries(t, jobId, es, |es|, x);
    }
  }

  /** Reconciliation with validated items keeps the options-iff-select invariant. */
  lemma ReconcileKeepsOptionsInvariant(t: FieldTable, jobId: nat, es: seq<Entry>)
    requires Fresh(t) && IdsKnown(t, es) && RowsOfJob(es, jobId)
    requires forall i :: 0 <= i < |es| ==> OptionsIffSelect(es[i].row)
    requires forall x :: x in t.rows ==> OptionsIffSelect(t.rows[x])
    ensures var r := Reconcile(t, jobId, es);
            forall x :: x in r.rows ==> OptionsIffSelect(r.rows[x])
  {
    forall x | x in Reconcile(t, jobId, es).rows ensures OptionsIffSelect(Reconcile(t, jobId, es).rows[x]) {
      ReconcileRowOrigin(t, jobId, es, x);
    }
  }

  /** The rows built from validated items all keep the options-iff-select invariant. */
  lemma ValidEntriesKeepInvariant(jobId: nat, items: seq<FieldItem>)
    requires forall i :: 0 <= i < |items| ==> ItemValid(items[i])
    ensures AllStorable(items)
    ensures var es := Entries(jobId, items);
            forall i :: 0 <= i < |es| ==> OptionsIffSelect(es[i].row)
  {
    forall i | 0 <= i < |items| ensures Storable(items[i]) && OptionsIffSelect(RowFrom(jobId, items[i])) {
      ValidItemKeepsInvariant(jobId, items[i]);
    }
  }
}

=== FILE: FieldRules.dfy ===
/** The per-item rules JobPostController applies to each element of a request's
    `fields` array, and the row it builds from an accepted element. */
module FieldRules {
  import opened Common

  /** The six tags of the `field_type` enum column. */
  datatype FieldType = Text | Textarea | Number | Date | File | Select

  const FieldTypeTags: set<string> := {"text", "textarea", "number", "date", "file", "select"}

  /** The `in:text,textarea,number,date,file,select` rule, returning the tag it accepts. */
  function ParseFieldType(s: string): (t: Option<FieldType>)
    ensures t.Some? <==> s in FieldTypeTags
    ensures t == Some(Select) <==> s == "select"
    ensures t == Some(File) <==> s == "file"
  {
    if s == "text" then Some(Text)
    else if s == "textarea" then Some(Textarea)
    else if s == "number" then Some(Number)
    else if s == "date" then Some(Date)
    else if s == "file" then Some(File)
    else if s == "select" then Some(Select)
    else None
  }

  /** The value of an item's `options` key as the request carries it. */
  datatype OptionsInput =
    | Missing                  // the key is absent
    | Null                     // the key is present with null
    | List(items: seq<Option<string>>) // an array of strings and nulls (None)
    | NotList                  // a string, number or boolean

  /** One element of the request's `fields` array; `None` means the key is absent. */
  datatype FieldItem = FieldItem(
    id: Option<nat>,
    name: Option<string>,
    description: Option<string>,
    fieldType: Option<string>,
    isRequired: Option<bool>,
    status: Option<bool>,
    order: Option<int>,
    options: OptionsInput)

  /** One row of the job_application_fields table. */
  datatype FieldRow = FieldRow(
    jobId: nat,
    name: string,
    description: Option<string>,
    fieldType: FieldType,
    isRequired: bool,
    status: bool,
    order: int,
    options: Option<seq<Option<string>>>)

  /** The stored-field invariant: a select field has a non-empty option list and
      every other field has none. */
  predicate OptionsIffSelect(row: FieldRow) {
    if row.fieldType == Select then row.options.Some? && row.options.value != []
    else row.options == None
  }

  /** The options closure as its messages state it, applied to every item:
      a select item needs a non-empty array, any other item needs null. */
  predicate OptionsRule(item: FieldItem) {
    if item.fieldType == Some("select") then item.options.List? && item.options.items != []
    else item.options.Missing? || item.options.Null?
  }

  /** The options closure as Laravel runs it: the attribute is `nullable` and the
      closure is not an implicit rule, so the closure is skipped whenever the
      value is null or the key is absent. */
  predicate OptionsRuleAsWritten(item: FieldItem) {
    item.options.Missing? || item.options.Null? ||
    (if item.fieldType == Some("select") then item.options.List? && item.options.items != []
     else false)
  }

  /** `field_name` is `required_with:fields|string|max:255`. */
  predicate NameRule(item: FieldItem) {
    item.name.Some? && !PhpBlank(item.name.value) && |item.name.value| <= 255
  }

  /** `field_type` is `required_with:fields|in:…`. */
  predicate TypeRule(item: FieldItem) {
    item.fieldType.Some? && ParseFieldType(item.fieldType.value).Some?
  }

  /** All rules one element of `fields` must pass in `store` and `update`. */
  predicate ItemValid(item: FieldItem) {
    NameRule(item) && TypeRule(item) && OptionsRule(item)
  }

  /** What the row-building array literal needs to evaluate without a PHP error:
      a select item must have an `options` key. */
  predicate Storable(item: FieldItem) {
    item.name.Some? && TypeRule(item) &&
    (item.fieldType == Some("select") ==> item.options.List? || item.options.Null?)
  }

  /** The attribute array that `create` and `update` write for one item. */
  function RowFrom(jobId: nat, item: FieldItem): FieldRow
    requires Storable(item)
  {
    var t := ParseFieldType(item.fieldType.value).value;
    FieldRow(
      jobId,
      item.name.value,
      item.description,
      t,
      if item.isRequired.Some? then item.isRequired.value else false,
      if item.status.Some? then item.status.value else true,
      if item.order.Some? then item.order.value else 0,
      if t == Select then (if item.options.List? then Some(item.options.items) else None) else None)
  }

  /** A stored row takes the item's name, type and description; a missing
      `is_required` reads as false, a missing `status` as true, a missing `order`
      as 0; options are kept for a select field and dropped for every other. */
  lemma RowFromDefaults(jobId: nat, item: FieldItem)
    requires Storable(item)
    ensures var r := RowFrom(jobId, item);
      && r.jobId == jobId && r.name == item.name.value
      && Some(r.fieldType) == ParseFieldType(item.fieldType.value)
      && r.description == item.description
      && (r.isRequired <==> item.isRequired == Some(true))
      && (r.status <==> item.status != Some(false))
      && (item.order.None? ==> r.order == 0)
      && (item.order.Some? ==> r.order == item.order.value)
      && (r.fieldType == Select && item.options.List? ==> r.options == Some(item.options.items))
      && (r.fieldType != Select ==> r.options == None)
  {
  }

  /** Every item the validator accepts can be stored, and its row keeps the
      options-iff-select invariant. */
  lemma ValidItemKeepsInvariant(jobId: nat, item: FieldItem)
    requires ItemValid(item)
    ensures Storable(item) && OptionsIffSelect(RowFrom(jobId, item))
  {
  }

  /** The as-written rule admits a select item whose options are null, and the
      row stored for it breaks the invariant; the corrected rule refuses it. */
  lemma SelectWithNullOptionsSlipsThrough()
    ensures var item := FieldItem(None, Some("Shift"), None, Some("select"), None, None, None, Null);
      && OptionsRuleAsWritten(item) && NameRule(item) && TypeRule(item) && Storable(item)
      && !OptionsIffSelect(RowFrom(1, item))
      && !OptionsRule(item)
  {
    var item := FieldItem(None, Some("Shift"), None, Some("select"), None, None, None, Null);
    assert item.name.value == "Shift";
    assert !PhpSpace(item.name.value[0]);
  }

  /** The two rules agree except where Laravel skips the closure. */
  lemma OptionsRuleRefinesAsWritten(item: FieldItem)
    ensures OptionsRule(item) ==> OptionsRuleAsWritten(item)
    ensures OptionsRuleAsWritten(item) && !OptionsRule(item) ==>
              item.fieldType == Some("select") && (item.options.Missing? || item.options.Null?)
  {
  }

  // ---------------------------------------------------------------------------
  // Reading one element of `fields` from a JSON request body

  /** A JSON value of a request body; an array element that is null is None. */
  datatype Json = JNull | JStr(s: string) | JBool(b: bool) | JInt(i: int) | JArray(xs: seq<Option<string>>)

  /** What the `boolean` rule accepts: true, false, 0, 1, "0" and "1". */
  function AsBool(j: Json): Option<bool> {
    match j
    case JBool(b) => Some(b)
    case JInt(i) => if i == 0 then Some(false) else if i == 1 then Some(true) else None
    case JStr(s) => if s == "0" then Some(false) else if s == "1" then Some(true) else None
    case _ => None
  }

  /** The keys the controller reads from one element of `fields`, or None when
      a present key holds a value its type rule (`string`, `boolean`,
      `integer`, `exists`) refuses. The element is the one validation sees,
      after the global middleware (RequestCleaning.Cleaned). A key the
      controller does not read has no effect: its value is never looked at. */
  function ReceivedItem(m: map<string, Json>): (item: Option<FieldItem>)
    ensures item.Some? && "field_description" !in m ==> item.value.description == None
    ensures item.Some? && "options" !in m ==> item.value.options == Missing
    ensures item.Some? && "id" !in m ==> item.value.id == None
    ensures item.Some? && "field_name" in m ==> m["field_name"].JStr? && item.value.name == Some(m["field_name"].s)
    ensures item.Some? && "field_type" in m ==> m["field_type"].JStr? && item.value.fieldType == Some(m["field_type"].s)
    ensures item.Some? && "is_required" in m ==> AsBool(m["is_required"]).Some? && item.value.isRequired == AsBool(m["is_required"])
    ensures item.Some? && "field_description" in m && m["field_description"].JStr? ==>
              item.value.description == Some(m["field_description"].s)
    ensures item.Some? && "field_description" in m && m["field_description"].JNull? ==> item.value.description == None
    ensures item.Some? && "id" in m ==> m["id"].JInt? && m["id"].i >= 0 && item.value.id == Some(m["id"].i as nat)
    ensures item.Some? && "status" in m ==> AsBool(m["status"]).Some? && item.value.status == AsBool(m["status"])
    ensures item.Some? && "order" in m && m["order"].JInt? ==> item.value.order == Some(m["order"].i)
    ensures item.Some? && "order" in m && m["order"].JNull? ==> item.value.order == None
    ensures item.Some? && "options" in m && m["options"].JArray? ==> item.value.options == List(m["options"].xs)
    ensures item.Some? && "options" in m && m["options"].JNull? ==> item.value.options == Null
    ensures "is_required" in m && m["is_required"].JNull? ==> item.None?
    ensures "order" in m && !(m["order"].JInt? || m["order"].JNull?) ==> item.None?
  {
    var idOk := "id" !in m || (m["id"].JInt? && m["id"].i >= 0);
    var nameOk := "field_name" !in m || m["field_name"].JStr?;
    var descOk := "field_description" !in m || m["field_description"].JStr? || m["field_description"].JNull?;
    var typeOk := "field_type" !in m || m["field_type"].JStr?;
    var reqOk := "is_required" !in m || AsBool(m["is_required"]).Some?;
    var statusOk := "status" !in m || AsBool(m["status"]).Some?;
    var orderOk := "order" !in m || m["order"].JInt? || m["order"].JNull?;
    if !(idOk && nameOk && descOk && typeOk && reqOk && statusOk && orderOk) then None
    else Some(FieldItem(
      if "id" in m then Some(m["id"].i as nat) else None,
      if "field_name" in m then Some(m["field_name"].s) else None,
      if "field_description" in m && m["field_description"].JStr? then Some(m["field_description"].s) else None,
      if "field_type" in m then Some(m["field_type"].s) else None,
      if "is_required" in m then AsBool(m["is_required"]) else None,
      if "status" in m then AsBool(m["status"]) else None,
      if "order" in m && m["order"].JInt? then Some(m["order"].i) else None,
      if "options" !in m then Missing
      else match m["options"]
        case JArray(xs) => List(xs)
        case JNull => Null
        case _ => NotList))
  }

  /** A key the controller does not read, such as `description`, has no
      effect on the item it reads. */
  lemma UnreadKeyIgnored(m: map<string, Json>, k: string)
    requires k !in ItemKeys
    ensures ReceivedItem(m - {k}) == ReceivedItem(m)
  {
    var m' := m - {k};
    forall j | j in ItemKeys ensures (j in m' <==> j in m) && (j in m ==> m'[j] == m[j]) {
      assert j != k;
    }
  }

  /** The keys of one element of `fields` that the controller reads. */
  const ItemKeys: set<string> :=
    {"id", "field_name", "field_description", "field_type", "is_required", "status", "order", "options"}
}

=== FILE: JobPosts.dfy ===
/** The actions of JobPostController that change or filter job posts: `store`,
    `update`, `destroy`, `updateStatus` and `search`. Each action is atomic over
    the tables: the framework's transaction either commits everything it did or
    rolls all of it back. */
module JobPosts {
  import opened Common
  import opened FieldRules
  import opened FieldReconcile
  import opened Tables

  /** The request's `fields` key. */
  datatype FieldsInput =
    | NoFields                  // the key is absent
    | NullFields                // the key is present with null
    | NotArray                  // a value the `array` rule refuses
    | Items(items: seq<FieldItem>)

  /** `fields` is `nullable|array` and every element passes the per-item rules. */
  predicate FieldsValid(f: FieldsInput) {
    match f
    case NotArray => false
    case Items(xs) => forall i :: 0 <= i < |xs| ==> ItemValid(xs[i])
    case _ => true
  }

  function ItemsOf(f: FieldsInput): seq<FieldItem> {
    if f.Items? then f.items else []
  }

  /** `Auth::user()` owns the job post `jobId`; the comparison is strict, so the
      ids must be equal. */
  predicate OwnedBy(jobs: map<nat, JobPost>, jobId: nat, user: User) {
    jobId in jobs && jobs[jobId].employerId == user.id
  }

  // ---------------------------------------------------------------------------
  // store

  /** The body of a `store` request; `None` means the key is absent. */
  datatype NewJob = NewJob(
    title: Option<string>,
    description: Option<string>,
    locationId: Option<nat>,
    typeId: Option<nat>,
    categoryId: Option<nat>,
    locationTypeId: Option<nat>,
    status: Option<Json>,
    fields: FieldsInput)

  /** The rules `store` validates: required, non-blank title of at most 100
      characters; required, non-blank description; location, type and category
      present in their lookup tables; a location type that is absent or
      present in its table; a status that is absent or boolean-like (null is
      refused); valid fields. */
  predicate NewJobValid(c: Catalog, r: NewJob) {
    && r.title.Some? && !PhpBlank(r.title.value) && |r.title.value| <= 100
    && r.description.Some? && !PhpBlank(r.description.value)
    && r.locationId.Some? && r.locationId.value in c.locations
    && r.typeId.Some? && r.typeId.value in c.types
    && r.categoryId.Some? && r.categoryId.value in c.categories
    && (r.locationTypeId.Some? ==> r.locationTypeId.value in c.locationTypes)
    && (r.status.Some? ==> AsBool(r.status.value).Some?)
    && FieldsValid(r.fields)
  }

  /** The job_posts row `store` creates; `status` defaults to false. */
  function JobFrom(employerId: nat, r: NewJob): (j: JobPost)
    requires r.title.Some? && r.description.Some? && r.locationId.Some? && r.typeId.Some?
    requires r.categoryId.Some? && r.locationTypeId.Some?
    ensures j.employerId == employerId && j.title == r.title.value && j.description == r.description.value
    ensures j.categoryId == r.categoryId.value && j.typeId == r.typeId.value
    ensures j.locationId == r.locationId.value && j.locationTypeId == r.locationTypeId.value
    ensures j.status <==> r.status.Some? && AsBool(r.status.value) == Some(true)
  {
    JobPost(employerId, r.title.value, r.description.value, r.categoryId.value, r.typeId.value,
            r.locationId.value, r.locationTypeId.value,
            if r.status.Some? && AsBool(r.status.value).Some? then AsBool(r.status.value).value else false)
  }

  /** The `foreach` of `store`: one `create` per item, in order. */
  method InsertFields(t0: FieldTable, jobId: nat, items: seq<FieldItem>) returns (t: FieldTable)
    requires AllStorable(items)
    ensures t == InsertRows(t0, Entries(jobId, items))
  {
    ghost var rows := RowsOf(Entries(jobId, items));
    t := t0;
    var i := 0;
    while i < |items|
      invariant 0 <= i <= |items|
      invariant t.next == t0.next + i
      invariant t.rows == Appended(t0.rows, t0.next, rows[..i])
    {
      var row := RowFrom(jobId, items[i]);
      AppendedSnoc(t0.rows, t0.next, rows, i);
      t := FieldTable(t.rows[t.next := row], t.next + 1);
      i := i + 1;
    }
    assert rows[..|items|] == rows;
  }

  /** The transaction of `store` when it commits: the job post row under the
      next id, then one field row per item. */
  method CreateJob(db: Database, employerId: nat, r: NewJob) returns (id: nat)
    requires db.Valid() && NewJobValid(db.catalog, r) && r.locationTypeId.Some? && !r.fields.NullFields?
    modifies db
    ensures db.Valid()
    ensures id == old(db.nextJob) && id !in old(db.jobs)
    ensures db.jobs == old(db.jobs)[id := JobFrom(employerId, r)] && db.nextJob == id + 1
    ensures db.fields == InsertRows(old(db.fields), Entries(id, ItemsOf(r.fields)))
    ensures db.applications == old(db.applications) && db.nextApplication == old(db.nextApplication)
    ensures db.answers == old(db.answers) && db.nextAnswer == old(db.nextAnswer)
  {
    id := db.nextJob;
    var jobs := db.jobs[id := JobFrom(employerId, r)];
    var items := ItemsOf(r.fields);
    var es := Entries(id, items);
    var t := InsertFields(db.fields, id, items);
    EntriesOfJob(id, items);
    ValidEntriesKeepInvariant(id, items);
    InsertKeepsTables(db.fields, id, es, jobs.Keys);
    db.jobs, db.nextJob, db.fields := jobs, id + 1, t;
  }

  /** `store`: a non-employer is refused; an invalid body is refused; the job
      post is created with the next id and one field row per item, in order.
      The job_posts.location_type_id column is not nullable, so a valid body
      without a location type fails on insert, and a `fields` key holding null
      fails in the loop; both roll back. */
  method Store(db: Database, user: User, r: NewJob) returns (reply: Reply<nat>)
    requires db.Valid()
    modifies db
    ensures db.Valid()
    ensures user.role != "employer" ==> reply == Failure(403, "Only employers can post jobs") && unchanged(db)
    ensures user.role == "employer" && !NewJobValid(db.catalog, r) ==> reply == Invalid && unchanged(db)
    ensures user.role == "employer" && NewJobValid(db.catalog, r) && (r.locationTypeId.None? || r.fields.NullFields?) ==>
              reply == Thrown && unchanged(db)
    ensures reply.Success? <==>
              user.role == "employer" && NewJobValid(db.catalog, r) && r.locationTypeId.Some? && !r.fields.NullFields?
    ensures reply.Success? ==>
              var id := old(db.nextJob);
              && reply == Success(201, id)
              && id !in old(db.jobs)
              && db.jobs == old(db.jobs)[id := JobFrom(user.id, r)]
              && db.nextJob == id + 1
              && db.fields == InsertRows(old(db.fields), Entries(id, ItemsOf(r.fields)))
              && db.applications == old(db.applications) && db.nextApplication == old(db.nextApplication)
              && db.answers == old(db.answers) && db.nextAnswer == old(db.nextAnswer)
  {
    if user.role != "employer" {
      return Failure(403, "Only employers can post jobs");
    }
    if !NewJobValid(db.catalog, r) {
      return Invalid;
    }
    if r.locationTypeId.None? || r.fields.NullFields? {
      return Thrown;
    }
    var id := CreateJob(db, user.id, r);
    reply := Success(201, id);
  }

  // ---------------------------------------------------------------------------
  // update

  /** The body of an `update` request; `None` means the key is absent. */
  datatype JobPatch = JobPatch(
    title: Option<string>,
    description: Option<string>,
    locationId: Option<nat>,
    typeId: Option<nat>,
    categoryId: Option<nat>,
    locationTypeId: Option<nat>,
    fields: FieldsInput)

  /** Every item id names a row of the field table, of any job post. */
  predicate ItemIdsExist(t: FieldTable, items: seq<FieldItem>) {
    forall i :: 0 <= i < |items| && items[i].id.Some? ==> items[i].id.value in t.rows
  }

  /** The rules `update` validates: every key is optional; a present title has
      at most 100 characters; a present title or description is a string, so
      the null that the middleware makes of a blank one is refused; present
      lookup ids exist; the fields are valid and every item id exists in the
      field table. */
  predicate PatchValid(c: Catalog, t: FieldTable, p: JobPatch) {
    && (p.title.Some? ==> p.title.value != [] && |p.title.value| <= 100)
    && (p.description.Some? ==> p.description.value != [])
    && (p.locationId.Some? ==> p.locationId.value in c.locations)
    && (p.typeId.Some? ==> p.typeId.value in c.types)
    && (p.categoryId.Some? ==> p.categoryId.value in c.categories)
    && (p.locationTypeId.Some? ==> p.locationTypeId.value in c.locationTypes)
    && FieldsValid(p.fields)
    && ItemIdsExist(t, ItemsOf(p.fields))
  }

  /** `$job->update($request->only([...]))`: each present key replaces the
      attribute; the owner and the status are never touched. */
  function Patched(j: JobPost, p: JobPatch): (r: JobPost)
    ensures r.employerId == j.employerId && r.status == j.status
    ensures r.title == (if p.title.Some? then p.title.value else j.title)
    ensures r.description == (if p.description.Some? then p.description.value else j.description)
    ensures r.categoryId == (if p.categoryId.Some? then p.categoryId.value else j.categoryId)
    ensures r.typeId == (if p.typeId.Some? then p.typeId.value else j.typeId)
    ensures r.locationId == (if p.locationId.Some? then p.locationId.value else j.locationId)
    ensures r.locationTypeId == (if p.locationTypeId.Some? then p.locationTypeId.value else j.locationTypeId)
    ensures p == JobPatch(None, None, None, None, None, None, p.fields) ==> r == j
  {
    JobPost(
      j.employerId,
      if p.title.Some? then p.title.value else j.title,
      if p.description.Some? then p.description.value else j.description,
      if p.categoryId.Some? then p.categoryId.value else j.categoryId,
      if p.typeId.Some? then p.typeId.value else j.typeId,
      if p.locationId.Some? then p.locationId.value else j.locationId,
      if p.locationTypeId.Some? then p.locationTypeId.value else j.locationTypeId,
      j.status)
  }

  /** One pass of the `foreach` of `update`: an item with an id updates that
      row when it is one of the job's fields; an item without one is created. */
  method ApplyItem(t0: FieldTable, jobId: nat, item: FieldItem) returns (t: FieldTable)
    requires Storable(item)
    ensures t == ApplyEntry(t0, jobId, Entry(item.id, RowFrom(jobId, item)))
  {
    var row := RowFrom(jobId, item);
    t := t0;
    match item.id {
      case Some(id) =>
        if id in t.rows && t.rows[id].jobId == jobId {
          t := FieldTable(t.rows[id := row], t.next);
        }
      case None =>
        t := FieldTable(t.rows[t.next := row], t.next + 1);
    }
  }

  /** The `fields` branch of `update`: collect the job's field ids, run the
      loop that updates or inserts one row per item while collecting the ids
      it saw, then delete the job's fields whose ids it did not see. */
  method ReconcileFields(t0: FieldTable, jobId: nat, items: seq<FieldItem>) returns (t: FieldTable, deleteIds: set<nat>)
    requires AllStorable(items)
    ensures t == Reconcile(t0, jobId, Entries(jobId, items))
    ensures deleteIds == Doomed(t0, jobId, Entries(jobId, items))
  {
    ghost var es := Entries(jobId, items);
    var existingIds := OwnIds(t0.rows, jobId);
    var updatedIds: seq<nat> := [];
    t := t0;
    var i := 0;
    while i < |items|
      invariant 0 <= i <= |items|
      invariant t == ApplyPrefix(t0, jobId, es, i)
      invariant updatedIds == IdsBefore(es, i)
    {
      assert es[i] == Entry(items[i].id, RowFrom(jobId, items[i]));
      t := ApplyItem(t, jobId, items[i]);
      if items[i].id.Some? {
        updatedIds := updatedIds + [items[i].id.value];
      }
      i := i + 1;
    }
    deleteIds := existingIds - (set k | k in updatedIds);
    t := FieldTable(t.rows - deleteIds, t.next);
  }

  /** `update`: a missing job post is 404 and a non-owner is refused before
      validation; a valid request patches the job post and, when the request
      has a `fields` array, reconciles the job's fields with it (deleting a
      field deletes its answers). Without a `fields` key the fields and answers
      are left exactly as they were. */
  method Update(db: Database, user: User, jobId: nat, p: JobPatch) returns (reply: Reply<JobPost>)
    requires db.Valid()
    modifies db
    ensures db.Valid()
    ensures jobId !in old(db.jobs) ==> reply == NotFound && unchanged(db)
    ensures jobId in old(db.jobs) && !OwnedBy(old(db.jobs), jobId, user) ==>
              reply == Failure(403, "Unauthorized to update this job") && unchanged(db)
    ensures OwnedBy(old(db.jobs), jobId, user) && !PatchValid(db.catalog, old(db.fields), p) ==>
              reply == Invalid && unchanged(db)
    ensures OwnedBy(old(db.jobs), jobId, user) && PatchValid(db.catalog, old(db.fields), p) && p.fields.NullFields? ==>
              reply == Thrown && unchanged(db)
    ensures reply.Success? <==>
              OwnedBy(old(db.jobs), jobId, user) && PatchValid(db.catalog, old(db.fields), p) && !p.fields.NullFields?
    ensures reply.Success? ==>
              && db.jobs == old(db.jobs)[jobId := Patched(old(db.jobs)[jobId], p)]
              && reply == Success(200, db.jobs[jobId])
              && db.nextJob == old(db.nextJob)
              && db.applications == old(db.applications) && db.nextApplication == old(db.nextApplication)
              && db.nextAnswer == old(db.nextAnswer)
    ensures reply.Success? && p.fields.NoFields? ==> db.fields == old(db.fields) && db.answers == old(db.answers)
    ensures reply.Success? && p.fields.Items? ==>
              var es := Entries(jobId, p.fields.items);
              && db.fields == Reconcile(old(db.fields), jobId, es)
              && db.answers == AnswersWithout(old(db.answers), Doomed(old(db.fields), jobId, es), {})
  {
    if jobId !in db.jobs {
      return NotFound;
    }
    if db.jobs[jobId].employerId != user.id {
      return Failure(403, "Unauthorized to update this job");
    }
    if !PatchValid(db.catalog, db.fields, p) {
      return Invalid;
    }
    if p.fields.NullFields? {
      return Thrown;
    }
    var jobs := db.jobs[jobId := Patched(db.jobs[jobId], p)];
    if p.fields.NoFields? {
      db.jobs := jobs;
      return Success(200, jobs[jobId]);
    }
    var items := p.fields.items;
    var es := Entries(jobId, items);
    var t0 := db.fields;
    var t, deleteIds := ReconcileFields(t0, jobId, items);
    EntriesOfJob(jobId, items);
    ValidEntriesKeepInvariant(jobId, items);
    ReconcileKeepsTables(t0, jobId, es, jobs.Keys, db.answers, db.applications.Keys);
    db.jobs, db.fields := jobs, t;
    db.answers := AnswersWithout(db.answers, deleteIds, {});
    reply := Success(200, jobs[jobId]);
  }

  // ---------------------------------------------------------------------------
  // destroy

  /** The rows of a table left after the job post `jobId` is deleted, where
      `jobOf` reads the job post a row belongs to (the foreign key cascades). */
  function WithoutJob<T>(rows: map<nat, T>, jobOf: T -> nat, jobId: nat): (r: map<nat, T>)
    ensures forall k :: k in r <==> k in rows && jobOf(rows[k]) != jobId
    ensures forall k :: k in r ==> r[k] == rows[k]
  {
    map k | k in rows && jobOf(rows[k]) != jobId :: rows[k]
  }

  /** The job post a field row belongs to (its job_post_id). */
  function FieldJob(row: FieldRow): nat { row.jobId }

  /** The job post an application belongs to (its job_id). */
  function ApplicationJob(a: Application): nat { a.jobId }

  /** The cascade of deleting job post `jobId` leaves consistent tables: every
      remaining field row and application belongs to a remaining job post, no
      candidate gains a second application, and every remaining answer belongs
      to a remaining application and field. Nothing of the deleted job post is
      left behind. */
  lemma DestroyKeepsTables(jobIds: set<nat>, rows: map<nat, FieldRow>, apps: map<nat, Application>,
                           answers: map<nat, Answer>, jobId: nat)
    requires FieldsOk(rows, jobIds) && ApplicationsOk(apps, jobIds) && AnswersOk(answers, apps.Keys, rows.Keys)
    ensures var rows' := WithoutJob(rows, FieldJob, jobId);
            var apps' := WithoutJob(apps, ApplicationJob, jobId);
            && FieldsOk(rows', jobIds - {jobId})
            && ApplicationsOk(apps', jobIds - {jobId})
            && AnswersOk(AnswersWithout(answers, OwnIds(rows, jobId), apps.Keys - apps'.Keys), apps'.Keys, rows'.Keys)
  {
    var rows' := WithoutJob(rows, FieldJob, jobId);
    var apps' := WithoutJob(apps, ApplicationJob, jobId);
    assert rows'.Keys == rows.Keys - OwnIds(rows, jobId);
    assert apps'.Keys == apps.Keys - (apps.Keys - apps'.Keys);
    AnswersWithoutKeepsAnswersOk(answers, apps.Keys, rows.Keys, OwnIds(rows, jobId), apps.Keys - apps'.Keys);
  }

  /** `destroy`: a missing job post is 404, a non-owner is refused, otherwise
      the job post goes and so do its fields, its applications and every answer
      to either. */
  method Destroy(db: Database, user: User, jobId: nat) returns (reply: Reply<()>)
    requires db.Valid()
    modifies db
    ensures db.Valid()
    ensures jobId !in old(db.jobs) ==> reply == NotFound && unchanged(db)
    ensures jobId in old(db.jobs) && !OwnedBy(old(db.jobs), jobId, user) ==>
              reply == Failure(403, "Unauthorized to delete this job") && unchanged(db)
    ensures reply.Success? <==> OwnedBy(old(db.jobs), jobId, user)
    ensures reply.Success? ==>
              && reply == Success(200, ())
              && db.jobs == old(db.jobs) - {jobId}
              && db.fields == FieldTable(WithoutJob(old(db.fields.rows), FieldJob, jobId), old(db.fields.next))
              && db.applications == WithoutJob(old(db.applications), ApplicationJob, jobId)
              && db.answers == AnswersWithout(old(db.answers), OwnIds(old(db.fields.rows), jobId),
                                              old(db.applications.Keys) - db.applications.Keys)
              && db.nextJob == old(db.nextJob) && db.nextApplication == old(db.nextApplication)
              && db.nextAnswer == old(db.nextAnswer)
  {
    if jobId !in db.jobs {
      return NotFound;
    }
    if db.jobs[jobId].employerId != user.id {
      return Failure(403, "Unauthorized to delete this job");
    }
    var apps := WithoutJob(db.applications, ApplicationJob, jobId);
    var answers := AnswersWithout(db.answers, OwnIds(db.fields.rows, jobId), db.applications.Keys - apps.Keys);
    DestroyKeepsTables(db.jobs.Keys, db.fields.rows, db.applications, db.answers, jobId);
    db.jobs := db.jobs - {jobId};
    db.fields := FieldTable(WithoutJob(db.fields.rows, FieldJob, jobId), db.fields.next);
    db.applications := apps;
    db.answers := answers;
    reply := Success(200, ());
  }

  // ---------------------------------------------------------------------------
  // updateStatus

  /** The `{status}` argument: the route supplies a string; an integer is also
      accepted by the check. */
  datatype StatusArg = IntArg(i: int) | StrArg(s: string)

  /** `in_array($status, [0, 1, '0', '1'], true)` and then `(bool) $status`. */
  function StatusValue(a: StatusArg): (r: Option<bool>)
    ensures r.Some? <==> a == IntArg(0) || a == IntArg(1) || a == StrArg("0") || a == StrArg("1")
    ensures r == Some(true) <==> a == IntArg(1) || a == StrArg("1")
  {
    match a
    case IntArg(i) => if i == 0 then Some(false) else if i == 1 then Some(true) else None
    case StrArg(s) => if s == "0" then Some(false) else if s == "1" then Some(true) else None
  }

  /** `updateStatus`: 404, then the owner gate, then the value gate; an
      accepted value sets only the status of that one job post. */
  method UpdateStatus(db: Database, user: User, jobId: nat, a: StatusArg) returns (reply: Reply<JobPost>)
    requires db.Valid()
    modifies db
    ensures db.Valid()
    ensures jobId !in old(db.jobs) ==> reply == NotFound && unchanged(db)
    ensures jobId in old(db.jobs) && !OwnedBy(old(db.jobs), jobId, user) ==>
              reply == Failure(403, "Unauthorized to update this job") && unchanged(db)
    ensures OwnedBy(old(db.jobs), jobId, user) && StatusValue(a).None? ==>
              reply == Failure(422, "Invalid status value. Must be 0 or 1.") && unchanged(db)
    ensures reply.Success? <==> OwnedBy(old(db.jobs), jobId, user) && StatusValue(a).Some?
    ensures reply.Success? ==>
              && db.jobs == old(db.jobs)[jobId := old(db.jobs)[jobId].(status := StatusValue(a).value)]
              && reply == Success(200, db.jobs[jobId])
              && db.nextJob == old(db.nextJob) && db.fields == old(db.fields)
              && db.applications == old(db.applications) && db.nextApplication == old(db.nextApplication)
              && db.answers == old(db.answers) && db.nextAnswer == old(db.nextAnswer)
  {
    if jobId !in db.jobs {
      return NotFound;
    }
    if db.jobs[jobId].employerId != user.id {
      return Failure(403, "Unauthorized to update this job");
    }
    var v := StatusValue(a);
    if v.None? {
      return Failure(422, "Invalid status value. Must be 0 or 1.");
    }
    db.jobs := db.jobs[jobId := db.jobs[jobId].(status := v.value)];
    reply := Success(200, db.jobs[jobId]);
  }

  // ---------------------------------------------------------------------------
  // search

  /** The query-string filters of `search`; `None` means the parameter is absent. */
  datatype Query = Query(
    keyword: Option<string>,
    locationId: Option<nat>,
    typeId: Option<nat>,
    categoryId: Option<nat>,
    locationTypeId: Option<nat>)

  /** `$request->filled(...)` for a text parameter: present and not blank. */
  predicate Filled(s: Option<string>) {
    s.Some? && !PhpBlank(s.value)
  }

  /** `k` occurs in `s` starting at position `at`. */
  predicate OccursAt(s: string, k: string, at: nat) {
    at + |k| <= |s| && s[at..at + |k|] == k
  }

  /** `k` occurs in `s` at some position: the `LIKE '%k%'` test. */
  predicate Contains(s: string, k: string)
    decreases |s|
  {
    StartsWith(s, k) || (s != [] && Contains(s[1..], k))
  }

  /** A keyword found at any position is contained. */
  lemma {:induction false} ContainsAt(s: string, k: string, at: nat)
    requires OccursAt(s, k, at)
    ensures Contains(s, k)
  {
    if at > 0 {
      assert s[1..][at - 1..at - 1 + |k|] == k;
      ContainsAt(s[1..], k, at - 1);
    }
  }

  /** A contained keyword occurs at some position. */
  lemma {:induction false} ContainsOccurs(s: string, k: string)
    requires Contains(s, k)
    ensures exists at: nat :: OccursAt(s, k, at)
    decreases |s|
  {
    if StartsWith(s, k) {
      assert OccursAt(s, k, 0);
    } else {
      ContainsOccurs(s[1..], k);
      var at: nat :| OccursAt(s[1..], k, at);
      assert s[1..][at..at + |k|] == s[at + 1..at + 1 + |k|];
      assert OccursAt(s, k, at + 1);
    }
  }

  /** `Contains` is exactly "occurs at some position". */
  lemma ContainsIffOccurs(s: string, k: string)
    ensures Contains(s, k) <==> exists at: nat :: OccursAt(s, k, at)
  {
    if Contains(s, k) {
      ContainsOccurs(s, k);
    }
    forall at: nat | OccursAt(s, k, at) ensures Contains(s, k) {
      ContainsAt(s, k, at);
    }
  }

  /** The conditions `search` puts on one job post: it is open; a filled
      keyword occurs in its title or its description; each given id matches. */
  predicate Matches(j: JobPost, q: Query) {
    && j.status
    && (Filled(q.keyword) ==> Contains(j.title, q.keyword.value) || Contains(j.description, q.keyword.value))
    && (q.locationId.Some? ==> j.locationId == q.locationId.value)
    && (q.typeId.Some? ==> j.typeId == q.typeId.value)
    && (q.categoryId.Some? ==> j.categoryId == q.categoryId.value)
    && (q.locationTypeId.Some? ==> j.locationTypeId == q.locationTypeId.value)
  }

  /** The ids of the job posts `search` lists. */
  function Search(jobs: map<nat, JobPost>, q: Query): (r: set<nat>)
    ensures r <= jobs.Keys
    ensures forall k :: k in r ==> jobs[k].status
    ensures forall k :: k in r && Filled(q.keyword) ==>
              Contains(jobs[k].title, q.keyword.value) || Contains(jobs[k].description, q.keyword.value)
    ensures forall k :: k in r && q.locationId.Some? ==> jobs[k].locationId == q.locationId.value
    ensures forall k :: k in r && q.typeId.Some? ==> jobs[k].typeId == q.typeId.value
    ensures forall k :: k in r && q.categoryId.Some? ==> jobs[k].categoryId == q.categoryId.value
    ensures forall k :: k in r && q.locationTypeId.Some? ==> jobs[k].locationTypeId == q.locationTypeId.value
  {
    set k | k in jobs && Matches(jobs[k], q)
  }

  /** `q2` keeps every filter of `q1` and may add more. */
  predicate Narrows(q2: Query, q1: Query) {
    && (Filled(q1.keyword) ==> q2.keyword == q1.keyword)
    && (q1.locationId.Some? ==> q2.locationId == q1.locationId)
    && (q1.typeId.Some? ==> q2.typeId == q1.typeId)
    && (q1.categoryId.Some? ==> q2.categoryId == q1.categoryId)
    && (q1.locationTypeId.Some? ==> q2.locationTypeId == q1.locationTypeId)
  }

  /** Adding filters never adds results. */
  lemma SearchNarrowing(jobs: map<nat, JobPost>, q1: Query, q2: Query)
    requires Narrows(q2, q1)
    ensures Search(jobs, q2) <= Search(jobs, q1)
  {
  }

  /** With no filter filled, `search` lists exactly the open job posts; a blank
      keyword counts as no keyword. */
  lemma SearchUnfiltered(jobs: map<nat, JobPost>, q: Query)
    requires !Filled(q.keyword) && q.locationId.None? && q.typeId.None?
    requires q.categoryId.None? && q.locationTypeId.None?
    ensures forall k :: k in Search(jobs, q) <==> k in jobs && jobs[k].status
  {
  }

  /** An open job post whose title contains the keyword is found by it. */
  lemma SearchFindsTitle(jobs: map<nat, JobPost>, k: nat, word: string, at: nat)
    requires k in jobs && jobs[k].status
    requires OccursAt(jobs[k].title, word, at)
    ensures k in Search(jobs, Query(Some(word), None, None, None, None))
  {
    ContainsAt(jobs[k].title, word, at);
  }

  /** Every open job post that meets each filled filter is listed: its
      location, type, category and location type equal the given ids, and a
      filled keyword occurs at `at` in its title or, failing that, in its
      description. */
  lemma SearchComplete(jobs: map<nat, JobPost>, q: Query, k: nat, at: nat)
    requires k in jobs && jobs[k].status
    requires Filled(q.keyword) ==>
               OccursAt(jobs[k].title, q.keyword.value, at) || OccursAt(jobs[k].description, q.keyword.value, at)
    requires q.locationId.Some? ==> jobs[k].locationId == q.locationId.value
    requires q.typeId.Some? ==> jobs[k].typeId == q.typeId.value
    requires q.categoryId.Some? ==> jobs[k].categoryId == q.categoryId.value
    requires q.locationTypeId.Some? ==> jobs[k].locationTypeId == q.locationTypeId.value
    ensures k in Search(jobs, q)
  {
    if Filled(q.keyword) {
      if OccursAt(jobs[k].title, q.keyword.value, at) {
        ContainsAt(jobs[k].title, q.keyword.value, at);
      } else {
        ContainsAt(jobs[k].description, q.keyword.value, at);
      }
    }
  }

  /** A listed job post with a filled keyword has it at some position of its
      title or its description. */
  lemma SearchKeywordFound(jobs: map<nat, JobPost>, q: Query, k: nat)
    requires k in Search(jobs, q) && Filled(q.keyword)
    ensures (exists at: nat :: OccursAt(jobs[k].title, q.keyword.value, at)) ||
            (exists at: nat :: OccursAt(jobs[k].description, q.keyword.value, at))
  {
    ContainsIffOccurs(jobs[k].title, q.keyword.value);
    ContainsIffOccurs(jobs[k].description, q.keyword.value);
  }
}

=== FILE: Registration.dfy ===
/** The registration page's checks, run in order before any request is made,
    and the request body it sends. */
module Registration {
  import opened Common

  datatype Role = Employer | Candidate

  function RoleName(r: Role): string {
    match r
    case Employer => "employer"
    case Candidate => "candidate"
  }

  /** The form as the user filled it in. */
  datatype Form = Form(role: Role, name: string, email: string, password: string, company: string)

  /** JavaScript falsiness of a text input: only the empty string. */
  predicate Filled(s: string) {
    s != []
  }

  predicate Presence(f: Form) {
    Filled(f.name) && Filled(f.email) && Filled(f.password) && (f.role == Employer ==> Filled(f.company))
  }

  // ---------------------------------------------------------------------------
  // The password pattern ^(?=.*[a-z])(?=.*[A-Z])(?=.*\d)[A-Za-z\d]{8,}$

  predicate Lower(c: char) { 'a' <= c <= 'z' }
  predicate Upper(c: char) { 'A' <= c <= 'Z' }
  predicate Digit(c: char) { '0' <= c <= '9' }

  /** What `.` refuses: the ECMAScript line terminators. */
  predicate LineTerminator(c: char) {
    c == '\n' || c == '\r' || c == '\U{2028}' || c == '\U{2029}'
  }

  /** The lookahead `(?=.*X)` at the start: some character of class X is
      preceded only by characters `.` matches. */
  predicate LookaheadFinds(s: string, matches: char -> bool) {
    exists i :: 0 <= i < |s| && matches(s[i]) && forall j :: 0 <= j < i ==> !LineTerminator(s[j])
  }

  /** The password pattern read as the regular-expression engine reads it. */
  predicate PasswordPattern(p: string) {
    && LookaheadFinds(p, Lower)
    && LookaheadFinds(p, Upper)
    && LookaheadFinds(p, Digit)
    && |p| >= 8
    && forall k :: 0 <= k < |p| ==> Lower(p[k]) || Upper(p[k]) || Digit(p[k])
  }

  /** The rule the pattern states in words: at least eight ASCII letters and
      digits only, with a lowercase letter, an uppercase letter and a digit. */
  predicate StrongPassword(p: string) {
    && |p| >= 8
    && (forall k :: 0 <= k < |p| ==> Lower(p[k]) || Upper(p[k]) || Digit(p[k]))
    && (exists k :: 0 <= k < |p| && Lower(p[k]))
    && (exists k :: 0 <= k < |p| && Upper(p[k]))
    && (exists k :: 0 <= k < |p| && Digit(p[k]))
  }

  /** The lookaheads' `.*` never has to cross a line terminator, because the
      body of the pattern admits none: the pattern is exactly the rule. */
  lemma PasswordPatternIsRule(p: string)
    ensures PasswordPattern(p) <==> StrongPassword(p)
  {
    if StrongPassword(p) {
      assert forall j :: 0 <= j < |p| ==> !LineTerminator(p[j]);
      var a :| 0 <= a < |p| && Lower(p[a]);
      var b :| 0 <= b < |p| && Upper(p[b]);
      var c :| 0 <= c < |p| && Digit(p[c]);
      assert Lower(p[a]) && forall j :: 0 <= j < a ==> !LineTerminator(p[j]);
      assert Upper(p[b]) && forall j :: 0 <= j < b ==> !LineTerminator(p[j]);
      assert Digit(p[c]) && forall j :: 0 <= j < c ==> !LineTerminator(p[j]);
    }
  }

  // ---------------------------------------------------------------------------
  // The email pattern ^[^\s@]+@[^\s@]+\.[^\s@]+$

  /** What `[^\s@]` matches. */
  predicate Plain(c: char) {
    !JsSpace(c) && c != '@'
  }

  predicate AllPlain(s: string) {
    forall k :: 0 <= k < |s| ==> Plain(s[k])
  }

  /** The email pattern read as the regular-expression engine reads it: the
      text splits into three non-empty plain runs joined by "@" and ".". */
  predicate EmailPattern(s: string) {
    exists i, j {:trigger s[i], s[j]} :: 0 < i && i + 1 < j && j + 1 < |s| && s[i] == '@' && s[j] == '.' &&
      AllPlain(s[..i]) && AllPlain(s[i + 1..j]) && AllPlain(s[j + 1..])
  }

  /** The rule in words: no whitespace, exactly one "@", which is not the first
      character, and a "." at least two characters after it that is not the
      last character. */
  predicate EmailShaped(s: string) {
    exists i :: 0 < i < |s| && s[i] == '@' &&
      (forall k :: 0 <= k < |s| ==> !JsSpace(s[k]) && (s[k] == '@' ==> k == i)) &&
      (exists j :: i + 1 < j < |s| - 1 && s[j] == '.')
  }

  /** A match splits into three plain runs, so only the one "@" it consumes
      can appear, and the "." it consumes lies inside the text. */
  lemma EmailPatternShaped(s: string)
    requires EmailPattern(s)
    ensures EmailShaped(s)
  {
    var i, j :| 0 < i && i + 1 < j && j + 1 < |s| && s[i] == '@' && s[j] == '.' &&
      AllPlain(s[..i]) && AllPlain(s[i + 1..j]) && AllPlain(s[j + 1..]);
    forall k | 0 <= k < |s| && k != i ensures Plain(s[k]) {
      if k < i {
        assert s[k] == s[..i][k];
      } else if k < j {
        assert s[k] == s[i + 1..j][k - i - 1];
      } else if k > j {
        assert s[k] == s[j + 1..][k - j - 1];
      }
    }
    assert i + 1 < j < |s| - 1 && s[j] == '.';
  }

  /** Text of that shape matches, splitting at its "@" and at the "." found
      after it. */
  lemma ShapedEmailMatches(s: string)
    requires EmailShaped(s)
    ensures EmailPattern(s)
  {
    var i :| 0 < i < |s| && s[i] == '@' &&
      (forall k :: 0 <= k < |s| ==> !JsSpace(s[k]) && (s[k] == '@' ==> k == i)) &&
      (exists j :: i + 1 < j < |s| - 1 && s[j] == '.');
    var j :| i + 1 < j < |s| - 1 && s[j] == '.';
    assert AllPlain(s[..i]) && AllPlain(s[i + 1..j]) && AllPlain(s[j + 1..]);
    assert s[i] == '@' && s[j] == '.';
  }

  lemma EmailPatternIsRule(s: string)
    ensures EmailPattern(s) <==> EmailShaped(s)
  {
    if EmailPattern(s) {
      EmailPatternShaped(s);
    }
    if EmailShaped(s) {
      ShapedEmailMatches(s);
    }
  }

  // ---------------------------------------------------------------------------
  // Submission

  /** The body of the registration request. */
  datatype Payload = Payload(
    name: string,
    email: string,
    password: string,
    passwordConfirmation: string,
    role: string,
    companyName: Option<string>)

  datatype Outcome = Rejected(message: string) | Request(payload: Payload)

  const MissingMessage := "Please fill in all fields."
  const PasswordMessage := "Password must be at least 8 characters long, contain at least one uppercase letter, one lowercase letter, and one number."
  const EmailMessage := "Please enter a valid email address."

  /** `handleSubmit` up to the request. */
  function HandleSubmit(f: Form): (r: Outcome)
    ensures !Presence(f) ==> r == Rejected(MissingMessage)
    ensures Presence(f) && !StrongPassword(f.password) ==> r == Rejected(PasswordMessage)
    ensures Presence(f) && StrongPassword(f.password) && !EmailShaped(f.email) ==> r == Rejected(EmailMessage)
    ensures r.Request? <==> Presence(f) && StrongPassword(f.password) && EmailShaped(f.email)
  {
    PasswordPatternIsRule(f.password);
    EmailPatternIsRule(f.email);
    if !Presence(f) then Rejected(MissingMessage)
    else if !PasswordPattern(f.password) then Rejected(PasswordMessage)
    else if !EmailPattern(f.email) then Rejected(EmailMessage)
    else Request(Payload(f.name, f.email, f.password, f.password, RoleName(f.role),
                         if f.role == Employer then Some(f.company) else None))
  }

  /** A request carries the form's values, confirms the password with itself,
      and names a company exactly when the role is employer. */
  lemma RequestPayload(f: Form)
    requires HandleSubmit(f).Request?
    ensures var p := HandleSubmit(f).payload;
            && p.name == f.name && p.email == f.email && p.password == f.password
            && p.passwordConfirmation == p.password
            && (p.companyName.Some? <==> f.role == Employer)
            && (p.companyName.Some? ==> p.companyName.value == f.company && f.company != [])
            && p.role in {"employer", "candidate"}
  {
  }
}

=== FILE: RequestCleaning.dfy ===
/** The two global middleware the framework runs on every request body before a
    controller sees it: TrimStrings, then ConvertEmptyStringsToNull. Both walk
    into arrays, so they reach every string of a JSON body. */
module RequestCleaning {
  import opened Common
  import opened FieldRules

  /** What `Str::trim` strips from either end of a string: the characters that
      PCRE's `\s` matches under the `u` modifier (horizontal and vertical white
      space, U+0085 and U+180E among them), and U+FEFF, U+200B and U+200E. */
  predicate TrimmedSpace(c: char) {
    JsSpace(c) || c == '\U{85}' || c == '\U{180E}' || c == '\U{200B}' || c == '\U{200E}'
  }

  /** Neither end of the string is stripped. */
  predicate Stripped(s: string) {
    s == [] || (!TrimmedSpace(s[0]) && !TrimmedSpace(s[|s| - 1]))
  }

  /** Drops leading stripped characters. */
  function StripStart(s: string): string
    decreases |s|
  {
    if s != [] && TrimmedSpace(s[0]) then StripStart(s[1..]) else s
  }

  /** Drops trailing stripped characters. */
  function StripEnd(s: string): string
    decreases |s|
  {
    if s != [] && TrimmedSpace(s[|s| - 1]) then StripEnd(s[..|s| - 1]) else s
  }

  /** How many stripped characters lead the string. */
  function LeadingSpace(s: string): int {
    |s| - |StripStart(s)|
  }

  /** `Str::trim`, which TrimStrings applies to every string. */
  function StrTrim(s: string): string {
    StripEnd(StripStart(s))
  }

  /** One string after both middleware: trimmed, and None (null) when nothing
      is left. */
  function CleanString(s: string): Option<string> {
    if StrTrim(s) == [] then None else Some(StrTrim(s))
  }

  /** StripStart removes a prefix made only of stripped characters, and what
      is left does not start with one. */
  lemma {:induction false} StripStartEffect(s: string)
    ensures var r := StripStart(s);
            && |r| <= |s| && r == s[|s| - |r|..]
            && (r == [] || !TrimmedSpace(r[0]))
            && (forall i :: 0 <= i < |s| - |r| ==> TrimmedSpace(s[i]))
    decreases |s|
  {
    if s != [] && TrimmedSpace(s[0]) {
      StripStartEffect(s[1..]);
    }
  }

  /** StripEnd removes a suffix made only of stripped characters, and what is
      left does not end with one. */
  lemma {:induction false} StripEndEffect(s: string)
    ensures var r := StripEnd(s);
            && |r| <= |s| && r == s[..|r|]
            && (r == [] || !TrimmedSpace(r[|r| - 1]))
            && (forall i :: |r| <= i < |s| ==> TrimmedSpace(s[i]))
    decreases |s|
  {
    if s != [] && TrimmedSpace(s[|s| - 1]) {
      var p := s[..|s| - 1];
      StripEndEffect(p);
      assert StripEnd(p) == p[..|StripEnd(p)|] == s[..|StripEnd(p)|];
    }
  }

  /** The trimmed string is a slice of the original with stripped characters
      on both sides, has nothing left to strip, and is empty exactly when every
      character is stripped. A string with nothing to strip is its own trim. */
  lemma StrTrimEffect(s: string)
    ensures var r := StrTrim(s);
            && Stripped(r) && |r| <= |s|
            && 0 <= LeadingSpace(s) <= |s| - |r| && r == s[LeadingSpace(s)..LeadingSpace(s) + |r|]
            && (forall k :: 0 <= k < LeadingSpace(s) ==> TrimmedSpace(s[k]))
            && (forall k :: LeadingSpace(s) + |r| <= k < |s| ==> TrimmedSpace(s[k]))
            && (r == [] <==> forall k :: 0 <= k < |s| ==> TrimmedSpace(s[k]))
            && (Stripped(s) ==> r == s)
  {
    var t := StripStart(s);
    StripStartEffect(s);
    StripEndEffect(t);
    var r := StripEnd(t);
    var i := |s| - |t|;
    assert r == s[i..i + |r|];
    assert r != [] ==> r[0] == t[0];
    forall k | i + |r| <= k < |s| ensures TrimmedSpace(s[k]) {
      assert s[k] == t[k - i];
    }
    if r != [] {
      assert s[i + |r| - 1] == r[|r| - 1];
    }
    if Stripped(s) && s != [] {
      assert t == s;
    }
  }

  /** A string arrives as null exactly when it is blank; otherwise it arrives
      trimmed, with the stripped characters gone from both ends only. A string
      with nothing to strip arrives unchanged. */
  lemma CleanStringEffect(s: string)
    ensures CleanString(s).None? <==> forall i :: 0 <= i < |s| ==> TrimmedSpace(s[i])
    ensures CleanString(s).Some? ==>
              var r := CleanString(s).value;
              && r != [] && Stripped(r) && |r| <= |s|
              && 0 <= LeadingSpace(s) <= |s| - |r| && r == s[LeadingSpace(s)..LeadingSpace(s) + |r|]
    ensures s != [] && Stripped(s) ==> CleanString(s) == Some(s)
  {
    StrTrimEffect(s);
  }

  /** Every element of an array, cleaned; a null element stays null. */
  function CleanElements(xs: seq<Option<string>>): (r: seq<Option<string>>)
    ensures |r| == |xs|
  {
    seq(|xs|, k requires 0 <= k < |xs| => if xs[k].None? then None else CleanString(xs[k].value))
  }

  /** A JSON value holds no blank string and no string with something to
      strip at either end, neither as itself nor as an array element. */
  predicate CleanJson(v: Json) {
    && (v.JStr? ==> v.s != [] && Stripped(v.s))
    && (v.JArray? ==> forall i :: 0 <= i < |v.xs| && v.xs[i].Some? ==> v.xs[i].value != [] && Stripped(v.xs[i].value))
  }

  /** One JSON value after both middleware. Only strings change: null,
      booleans and numbers pass as they are, and an array keeps its length. */
  function CleanValue(v: Json): Json {
    match v
    case JStr(s) => if CleanString(s).None? then JNull else JStr(CleanString(s).value)
    case JArray(xs) => JArray(CleanElements(xs))
    case _ => v
  }

  /** An array element arrives as null exactly when it was null or blank, and
      otherwise trimmed, non-empty and with nothing left to strip. */
  lemma CleanElementsEffect(xs: seq<Option<string>>)
    ensures forall i :: 0 <= i < |xs| ==>
              (CleanElements(xs)[i].None? <==> xs[i].None? || forall j :: 0 <= j < |xs[i].value| ==> TrimmedSpace(xs[i].value[j]))
    ensures forall i :: 0 <= i < |xs| && CleanElements(xs)[i].Some? ==>
              CleanElements(xs)[i].value != [] && Stripped(CleanElements(xs)[i].value)
  {
    forall i | 0 <= i < |xs| && xs[i].Some? {
      CleanStringEffect(xs[i].value);
    }
  }

  /** What cleaning does to one value: null, booleans and integers pass
      unchanged; a string becomes null exactly when blank and otherwise stays a
      string; an array stays an array of the same length; the result is clean. */
  lemma CleanValueEffect(v: Json)
    ensures v.JNull? || v.JBool? || v.JInt? ==> CleanValue(v) == v
    ensures v.JStr? ==> (CleanValue(v).JNull? <==> forall i :: 0 <= i < |v.s| ==> TrimmedSpace(v.s[i]))
    ensures v.JStr? ==> CleanValue(v).JNull? || CleanValue(v).JStr?
    ensures v.JArray? ==> CleanValue(v).JArray? && |CleanValue(v).xs| == |v.xs|
    ensures CleanJson(CleanValue(v))
  {
    match v
    case JStr(s) => CleanStringEffect(s);
    case JArray(xs) => CleanElementsEffect(xs);
    case _ =>
  }

  /** The body a controller validates, given the body the client sent. */
  function Cleaned(m: map<string, Json>): (r: map<string, Json>)
    ensures r.Keys == m.Keys
    ensures forall k :: k in m ==> r[k] == CleanValue(m[k])
  {
    map k | k in m :: CleanValue(m[k])
  }

  /** Every value of a cleaned body is clean; values that are not strings or
      arrays pass unchanged, a string stays a string or becomes null, and an
      array keeps its length. */
  lemma CleanedIsClean(m: map<string, Json>)
    ensures forall k :: k in Cleaned(m) ==> CleanJson(Cleaned(m)[k])
    ensures forall k :: k in m && (m[k].JNull? || m[k].JBool? || m[k].JInt?) ==> Cleaned(m)[k] == m[k]
    ensures forall k :: k in m && m[k].JStr? ==> Cleaned(m)[k].JStr? || Cleaned(m)[k].JNull?
    ensures forall k :: k in m && m[k].JArray? ==> Cleaned(m)[k].JArray? && |Cleaned(m)[k].xs| == |m[k].xs|
  {
    forall k | k in m {
      CleanValueEffect(m[k]);
    }
  }

  /** Cleaning a clean value changes nothing. */
  lemma CleanValueOfClean(v: Json)
    requires CleanJson(v)
    ensures CleanValue(v) == v
  {
    match v
    case JStr(s) => CleanStringEffect(s);
    case JArray(xs) =>
      forall k | 0 <= k < |xs| ensures CleanElements(xs)[k] == xs[k] {
        if xs[k].Some? {
          CleanStringEffect(xs[k].value);
        }
      }
      assert CleanElements(xs) == xs;
    case _ =>
  }

  /** Running the middleware twice is the same as running it once: a body that
      has been cleaned holds no blank string and no string with surrounding
      white space. */
  lemma CleanedIdempotent(m: map<string, Json>)
    ensures Cleaned(Cleaned(m)) == Cleaned(m)
  {
    CleanedIsClean(m);
    forall k | k in m ensures Cleaned(Cleaned(m))[k] == Cleaned(m)[k] {
      CleanValueOfClean(Cleaned(m)[k]);
    }
  }
}

=== FILE: RouteGuard.dfy ===
/** The frontend's route guard: which pages need a session, which need a role,
    where a visitor is sent, and whether the page's content is shown. */
module RouteGuard {
  import opened Common

  /** Pages open without a session. */
  const PublicRoutes: seq<string> := ["/", "/login", "/register"]

  /** Path prefixes that need a role, in the order they are tried. */
  const RouteRoles: seq<(string, string)> := [("/employer", "employer"), ("/candidate", "candidate")]

  /** The role of the first prefix the path starts with, if any. */
  function RequiredRoleFrom(path: string, entries: seq<(string, string)>): (r: Option<string>)
    ensures r.None? <==> forall k :: 0 <= k < |entries| ==> !StartsWith(path, entries[k].0)
    ensures r.Some? ==> exists k :: 0 <= k < |entries| && StartsWith(path, entries[k].0) && r.value == entries[k].1
    decreases |entries|
  {
    if entries == [] then None
    else if StartsWith(path, entries[0].0) then Some(entries[0].1)
    else
      var r := RequiredRoleFrom(path, entries[1..]);
      assert forall k :: 1 <= k < |entries| ==> entries[k] == entries[1..][k - 1];
      r
  }

  function RequiredRole(path: string): Option<string> {
    RequiredRoleFrom(path, RouteRoles)
  }

  /** Paths under "/employer" need the employer role, paths under "/candidate"
      the candidate role, and no other path needs one. */
  lemma RequiredRoleByPrefix(path: string)
    ensures StartsWith(path, "/employer") ==> RequiredRole(path) == Some("employer")
    ensures !StartsWith(path, "/employer") && StartsWith(path, "/candidate") ==> RequiredRole(path) == Some("candidate")
    ensures !StartsWith(path, "/employer") && !StartsWith(path, "/candidate") ==> RequiredRole(path) == None
  {
    assert RouteRoles[1..] == [("/candidate", "candidate")];
  }

  // ---------------------------------------------------------------------------
  // encodeURIComponent

  /** The characters encodeURIComponent leaves as they are. */
  predicate Unreserved(c: char) {
    ('A' <= c <= 'Z') || ('a' <= c <= 'z') || ('0' <= c <= '9') ||
    c == '-' || c == '_' || c == '.' || c == '!' || c == '~' || c == '*' || c == '\'' || c == '(' || c == ')'
  }

  function HexDigit(n: nat): (c: char)
    requires n < 16
    ensures IsHex(c) && HexValue(c) == n
  {
    if n < 10 then ('0' as int + n) as char else ('A' as int + n - 10) as char
  }

  /** The value of an upper-case hexadecimal digit, as a decoder reads it. */
  function HexValue(c: char): nat {
    if '0' <= c <= '9' then c as int - '0' as int
    else if 'A' <= c <= 'F' then c as int - 'A' as int + 10
    else 0
  }

  /** The UTF-8 bytes of one Unicode scalar value. */
  function Utf8(cp: nat): (bytes: seq<nat>)
    requires cp < 0x11_0000
    ensures 1 <= |bytes| <= 4 && forall k :: 0 <= k < |bytes| ==> bytes[k] < 256
  {
    if cp < 0x80 then [cp]
    else if cp < 0x800 then [0xC0 + cp / 64, 0x80 + cp % 64]
    else if cp < 0x1_0000 then [0xE0 + cp / 4096, 0x80 + (cp / 64) % 64, 0x80 + cp % 64]
    else [0xF0 + cp / 262144, 0x80 + (cp / 4096) % 64, 0x80 + (cp / 64) % 64, 0x80 + cp % 64]
  }

  predicate IsHex(c: char) {
    ('0' <= c <= '9') || ('A' <= c <= 'F')
  }

  /** Reads a run of "%XX" escapes back into bytes; None when the text is not
      such a run. */
  function PercentDecode(r: string): Option<seq<nat>>
    decreases |r|
  {
    if r == [] then Some([])
    else if |r| < 3 || r[0] != '%' || !IsHex(r[1]) || !IsHex(r[2]) then None
    else
      match PercentDecode(r[3..])
      case None => None
      case Some(rest) => Some([16 * HexValue(r[1]) + HexValue(r[2])] + rest)
  }

  /** Each byte written as "%XX"; the escapes read back as the bytes. */
  function PercentBytes(bytes: seq<nat>): (r: string)
    requires forall k :: 0 <= k < |bytes| ==> bytes[k] < 256
    ensures |r| == 3 * |bytes|
    ensures forall k :: 0 <= k < |r| ==> r[k] == '%' || IsHex(r[k])
    ensures PercentDecode(r) == Some(bytes)
  {
    if bytes == [] then ""
    else
      var head := ['%', HexDigit(bytes[0] / 16), HexDigit(bytes[0] % 16)];
      var tail := PercentBytes(bytes[1..]);
      assert (head + tail)[3..] == tail;
      assert [bytes[0]] + bytes[1..] == bytes;
      head + tail
  }

  /** One character as encodeURIComponent writes it: an unreserved character
      as itself, any other as percent escapes that read back as its UTF-8
      bytes. */
  function EncodeChar(c: char): (r: string)
    ensures |r| >= 1
    ensures forall k :: 0 <= k < |r| ==> Unreserved(r[k]) || r[k] == '%'
    ensures Unreserved(c) ==> r == [c]
    ensures !Unreserved(c) ==> r[0] == '%' && |r| == 3 * |Utf8(c as nat)| && PercentDecode(r) == Some(Utf8(c as nat))
  {
    if Unreserved(c) then [c] else PercentBytes(Utf8(c as nat))
  }

  /** encodeURIComponent. A Dafny char is a Unicode scalar value, so the lone
      surrogates for which JavaScript throws cannot occur. */
  function EncodeURIComponent(s: string): string
    decreases |s|
  {
    if s == [] then "" else EncodeChar(s[0]) + EncodeURIComponent(s[1..])
  }

  /** The encoded text is at least as long as the original and holds only
      unreserved characters and percent escapes: no "&", "#", "=", "?" or "/"
      that could end the query value it is put into. */
  lemma {:induction false} EncodedIsQuerySafe(s: string)
    ensures |EncodeURIComponent(s)| >= |s|
    ensures forall k :: 0 <= k < |EncodeURIComponent(s)| ==>
              Unreserved(EncodeURIComponent(s)[k]) || EncodeURIComponent(s)[k] == '%'
    decreases |s|
  {
    if s != [] {
      EncodedIsQuerySafe(s[1..]);
      var head := EncodeChar(s[0]);
      var tail := EncodeURIComponent(s[1..]);
      forall k | 0 <= k < |head + tail| ensures Unreserved((head + tail)[k]) || (head + tail)[k] == '%' {
        if k >= |head| {
          assert (head + tail)[k] == tail[k - |head|];
        }
      }
    }
  }

  // ---------------------------------------------------------------------------
  // The decision

  /** Where the guard sends the visitor. */
  datatype Redirect =
    | ToLogin(from: string)      // no session on a protected page
    | ToDashboard(role: string)  // a session on the landing page
    | ToUnauthorized             // a session with the wrong role

  function Target(r: Redirect): string {
    match r
    case ToLogin(from) => "/login?redirect=" + EncodeURIComponent(from)
    case ToDashboard(role) => "/" + role + "/dashboard"
    case ToUnauthorized => "/401"
  }

  /** The path part of a target, which the guard sees on the next render. */
  function TargetPath(r: Redirect): string {
    match r
    case ToLogin(_) => "/login"
    case ToDashboard(role) => "/" + role + "/dashboard"
    case ToUnauthorized => "/401"
  }

  /** The effect: nothing while the session is loading; then the first of the
      three cases that applies. */
  function Decide(loading: bool, user: Option<User>, path: string): (r: Option<Redirect>)
    ensures loading ==> r.None?
    ensures r == Some(ToLogin(path)) <==> !loading && user.None? && path !in PublicRoutes
    ensures r.Some? && r.value.ToDashboard? <==> !loading && user.Some? && path == "/"
    ensures r.Some? && r.value.ToDashboard? ==> r.value.role == user.value.role
    ensures r == Some(ToUnauthorized) <==>
              !loading && user.Some? && path != "/" && RequiredRole(path).Some? && RequiredRole(path).value != user.value.role
  {
    if loading then None
    else if user.None? && path !in PublicRoutes then Some(ToLogin(path))
    else if user.Some? && path == "/" then Some(ToDashboard(user.value.role))
    else if user.Some? && RequiredRole(path).Some? && user.value.role != RequiredRole(path).value then Some(ToUnauthorized)
    else None
  }

  /** Whether the children are shown rather than the spinner. */
  function Render(loading: bool, user: Option<User>, path: string): (shown: bool)
    ensures shown ==> !loading
    ensures shown && user.None? ==> path in PublicRoutes
    ensures !loading && user.Some? ==> shown
    ensures !loading && path in PublicRoutes ==> shown
  {
    !(loading || (user.None? && path !in PublicRoutes))
  }

  /** A protected page is never shown without a session: the visitor sees the
      spinner and, once loading ends, is sent to the login page with the page
      to come back to. */
  lemma ProtectedNeedsSession(loading: bool, path: string)
    requires path !in PublicRoutes
    ensures !Render(loading, None, path)
    ensures !loading ==> Decide(loading, None, path) == Some(ToLogin(path))
  {
  }

  /** No redirect points back at the page it is issued on. */
  lemma NoSelfRedirect(loading: bool, user: Option<User>, path: string)
    ensures Decide(loading, user, path).Some? ==> Target(Decide(loading, user, path).value) != path
  {
    var r := Decide(loading, user, path);
    if r.Some? {
      match r.value
      case ToLogin(from) =>
        EncodedIsQuerySafe(from);
        assert |Target(r.value)| > |path|;
      case ToDashboard(role) =>
        assert |Target(r.value)| > 1;
      case ToUnauthorized =>
        assert RequiredRole(path).Some?;
        RequiredRoleByPrefix("/401");
    }
  }

  /** For the two roles the application registers, the page a redirect leads
      to issues no further redirect. */
  lemma RedirectSettles(user: Option<User>, path: string)
    requires user.Some? ==> user.value.role in {"employer", "candidate"}
    ensures var r := Decide(false, user, path);
            r.Some? ==> Decide(false, user, TargetPath(r.value)).None?
  {
    var r := Decide(false, user, path);
    if r.Some? {
      var next := TargetPath(r.value);
      match r.value
      case ToLogin(_) =>
        assert next in PublicRoutes;
      case ToDashboard(role) =>
        RequiredRoleByPrefix(next);
        if role == "employer" {
          assert next == "/employer" + "/dashboard";
          assert StartsWith(next, "/employer");
        } else {
          assert next == "/candidate" + "/dashboard";
          assert StartsWith(next, "/candidate");
          assert next[1] == 'c' && "/employer"[1] == 'e';
          assert next[..|"/employer"|][1] != "/employer"[1];
        }
      case ToUnauthorized =>
        RequiredRoleByPrefix(next);
        assert !StartsWith(next, "/employer") && !StartsWith(next, "/candidate");
    }
  }

  /** With a session but the wrong role, the content is shown in the same render
      that issues the redirect to "/401": the gate checks only for a session. */
  lemma WrongRoleRendersUntilRedirected()
    ensures var user := Some(User(7, "candidate"));
            var path := "/employer/dashboard";
            Render(false, user, path) && Decide(false, user, path) == Some(ToUnauthorized)
  {
    var path := "/employer/dashboard";
    assert StartsWith(path, "/employer");
    RequiredRoleByPrefix(path);
  }
}

=== FILE: Tables.dfy ===
/** The tables the two controllers read and write, held by one object whose
    fields the controller actions update, and the consistency the schema's
    foreign keys and the controllers' checks maintain between them. */
module Tables {
  import opened Common
  import opened FieldRules
  import opened FieldReconcile

  /** One row of the job_posts table. */
  datatype JobPost = JobPost(
    employerId: nat,
    title: string,
    description: string,
    categoryId: nat,
    typeId: nat,
    locationId: nat,
    locationTypeId: nat,
    status: bool)

  /** One row of the applications table. */
  datatype Application = Application(
    candidateId: nat,
    jobId: nat,
    firstName: string,
    lastName: string,
    email: string,
    phone: string,
    resumePath: string)

  /** One row of the application_field_answers table. */
  datatype Answer = Answer(applicationId: nat, fieldId: nat, value: Option<string>)

  /** The ids present in the four lookup tables that the `exists:` rules consult. */
  datatype Catalog = Catalog(categories: set<nat>, types: set<nat>, locations: set<nat>, locationTypes: set<nat>)

  predicate KeysBelow<T>(m: map<nat, T>, next: nat) {
    forall k :: k in m ==> k < next
  }

  /** Every field row belongs to an existing job post and keeps the
      options-iff-select invariant. */
  predicate FieldsOk(rows: map<nat, FieldRow>, jobIds: set<nat>) {
    forall k :: k in rows ==> rows[k].jobId in jobIds && OptionsIffSelect(rows[k])
  }

  /** Every application belongs to an existing job post, and a candidate has at
      most one application per job post. */
  predicate ApplicationsOk(apps: map<nat, Application>, jobIds: set<nat>) {
    && (forall a :: a in apps ==> apps[a].jobId in jobIds)
    && (forall a, b :: a in apps && b in apps && a != b ==>
          apps[a].candidateId != apps[b].candidateId || apps[a].jobId != apps[b].jobId)
  }

  /** Every answer belongs to an existing application and an existing field. */
  predicate AnswersOk(answers: map<nat, Answer>, appIds: set<nat>, fieldIds: set<nat>) {
    forall k :: k in answers ==> answers[k].applicationId in appIds && answers[k].fieldId in fieldIds
  }

  /** The answers that survive deleting the given fields and applications: the
      `onDelete('cascade')` of both foreign keys. */
  function AnswersWithout(answers: map<nat, Answer>, fieldIds: set<nat>, appIds: set<nat>): (r: map<nat, Answer>)
    ensures forall k :: k in r <==> k in answers && answers[k].fieldId !in fieldIds && answers[k].applicationId !in appIds
    ensures forall k :: k in r ==> r[k] == answers[k]
  {
    map k | k in answers && answers[k].fieldId !in fieldIds && answers[k].applicationId !in appIds :: answers[k]
  }

  /** Deleting fields and applications together with their answers keeps every
      remaining answer attached to a remaining application and field. */
  lemma AnswersWithoutKeepsAnswersOk(answers: map<nat, Answer>, appIds: set<nat>, fieldIds: set<nat>,
                                     goneFields: set<nat>, goneApps: set<nat>)
    requires AnswersOk(answers, appIds, fieldIds)
    ensures AnswersOk(AnswersWithout(answers, goneFields, goneApps), appIds - goneApps, fieldIds - goneFields)
  {
  }

  class Database {
    var jobs: map<nat, JobPost>
    var nextJob: nat
    var fields: FieldTable
    var applications: map<nat, Application>
    var nextApplication: nat
    var answers: map<nat, Answer>
    var nextAnswer: nat
    const catalog: Catalog

    ghost predicate Valid()
      reads this
    {
      && KeysBelow(jobs, nextJob)
      && Fresh(fields)
      && FieldsOk(fields.rows, jobs.Keys)
      && KeysBelow(applications, nextApplication)
      && ApplicationsOk(applications, jobs.Keys)
      && KeysBelow(answers, nextAnswer)
      && AnswersOk(answers, applications.Keys, fields.rows.Keys)
    }

    /** Empty tables over a given set of lookup rows. */
    constructor (catalog: Catalog)
      ensures Valid() && this.catalog == catalog
      ensures jobs == map[] && fields.rows == map[] && applications == map[] && answers == map[]
    {
      this.catalog := catalog;
      jobs := map[];
      nextJob := 1;
      fields := FieldTable(map[], 1);
      applications := map[];
      nextApplication := 1;
      answers := map[];
      nextAnswer := 1;
    }
  }

  // ---------------------------------------------------------------------------
  // Consistency across changes

  /** Reconciling a job's fields with validated entries keeps every field row
      attached to an existing job post and keeps options-iff-select; the
      answers that survive the cascade still point at existing fields. */
  lemma ReconcileKeepsTables(t: FieldTable, jobId: nat, es: seq<Entry>, jobIds: set<nat>,
                             answers: map<nat, Answer>, appIds: set<nat>)
    requires Fresh(t) && IdsKnown(t, es) && RowsOfJob(es, jobId) && jobId in jobIds
    requires forall i :: 0 <= i < |es| ==> OptionsIffSelect(es[i].row)
    requires FieldsOk(t.rows, jobIds) && AnswersOk(answers, appIds, t.rows.Keys)
    ensures var r := Reconcile(t, jobId, es);
            && Fresh(r)
            && FieldsOk(r.rows, jobIds)
            && AnswersOk(AnswersWithout(answers, Doomed(t, jobId, es), {}), appIds, r.rows.Keys)
  {
    var r := Reconcile(t, jobId, es);
    ReconcileKeys(t, jobId, es);
    forall x | x in r.rows ensures r.rows[x].jobId in jobIds && OptionsIffSelect(r.rows[x]) {
      ReconcileRowOrigin(t, jobId, es, x);
    }
    var kept := AnswersWithout(answers, Doomed(t, jobId, es), {});
    forall k | k in kept ensures kept[k].fieldId in r.rows {
      ReconcileRowOrigin(t, jobId, es, kept[k].fieldId);
    }
  }

  /** Appending fresh rows for a job keeps every field row attached to an
      existing job post and keeps options-iff-select. */
  lemma InsertKeepsTables(t: FieldTable, jobId: nat, es: seq<Entry>, jobIds: set<nat>)
    requires Fresh(t) && RowsOfJob(es, jobId) && jobId in jobIds
    requires forall i :: 0 <= i < |es| ==> OptionsIffSelect(es[i].row)
    requires FieldsOk(t.rows, jobIds)
    ensures Fresh(InsertRows(t, es)) && FieldsOk(InsertRows(t, es).rows, jobIds)
    ensures t.rows.Keys <= InsertRows(t, es).rows.Keys
  {
    var u := InsertRows(t, es);
    InsertRowsEffect(t, es);
    forall x | x in u.rows ensures u.rows[x].jobId in jobIds && OptionsIffSelect(u.rows[x]) {
      if x !in t.rows {
        assert u.rows[t.next + (x - t.next)] == es[x - t.next].row;
      }
    }
  }
}
